=== FILE: README.md ===
# overengineered-calculator, modelled in Dafny

This project models the core of a small Go web service: a calculator that keeps a
running total per user. Users sign up with an email and a password, log in to get a
signed bearer token (a JWT), and then send operations (`ADD`, `SUBTRACT`,
`MULTIPLY`, `DIVIDE`, each with one operand). Every operation applies to the result
of that user's previous one, starting from 0. Every successful step is appended to
a history table, which the user can page through, newest first.

The model is functional. A database table is a value: the `users` table is a map
keyed by email, and the `calc_history` table is an append-only sequence with its
next id. The history listing and the running total read the table ordered by
`created_at`, newest first, as the SQL does; that is reverse insertion order only
while the database clock never runs back. Each operation takes the state and returns the new state. A database
failure is passed in as `fault: Option<Error>`. Go's `(T, error)` results become
`Result<T>`, and Go error values (sentinels, `sql.ErrNoRows`, `*pq.Error`, `%w`
wrapping) are one `Error` datatype. `errors.Is` and `errors.As` are modelled over
the unwrap chain. Library collaborators are parameters:

- the `%g` number formatter;
- `mail.ParseAddress`;
- `unicode.IsLetter` and `unicode.IsDigit`;
- bcrypt, as hash and check;
- the JWT library, as sign, read-the-algorithm and verify;
- the RFC 3339 time formatter;
- the services a handler calls.

A fresh UUID and the current time are inputs. `strconv.Atoi` is modelled exactly,
as its 64-bit behaviour.

Modules, following the repository's packages:

- `Errors`: error values, `errors.Is` and `errors.As`.
- `UserStore`, `AuthService`, `AuthToken`, `AuthContext`, `AuthHandler`: the
  `internal/auth` package (repository, service, token service, context keys,
  handlers).
- `HistoryStore`, `HistoryService`, `HistoryHandler`: `internal/history`.
- `Calculator`, `CalcHandler`: `internal/calculator`.
- `Web`, `Middleware`: responses, and `internal/http/middleware.go`.

`HistoryService.List` and `HistoryService.GetLatestResult` forward to the
repository unchanged, as the source does. The end-to-end lemmas of the handlers
go through them.

The comment on `Chain` in `internal/http/middleware.go` (line 14) says
`Chain(h, m1, m2)` is `m2(m1(h))`. The loop beneath it builds `m1(m2(h))`: the
first middleware listed is the outermost. The model follows the loop.

## Model

| member | source | states |
|---|---|---|
| Errors.Message | internal/calculator/handler.go:47-52 | the text `err.Error()` sends to the client: the declared texts of EmailAlreadyExists, UserNotFound (internal/auth/repository.go:13-14), InvalidOperation and DivisionByZero (internal/calculator/service.go:12-13), database/sql's no-rows text, lib/pq's "pq: " prefix, and a wrapping error's own text |
| Errors.AsPq | internal/auth/repository.go:62-63 | errors.As to a driver error succeeds exactly when some error on the unwrap chain is a driver error |
| Errors.Is | internal/auth/repository.go:52-54 | errors.Is holds exactly when the target is on the unwrap chain of the error |
| Errors.AsPqFindsFirstDriverError | internal/auth/repository.go:61-68 | errors.As to a driver error fails exactly when no driver error is on the chain; otherwise it yields the code of the first one |
| Errors.IsSeesThroughWrapping | internal/auth/service.go:102-104 | a sentinel wrapped any number of times with %w is still found by errors.Is |
| UserStore.IsUniqueViolation | internal/auth/repository.go:60-68 | true exactly when the first driver error on the chain carries SQLSTATE 23505 |
| UserStore.UniqueViolationByCode | internal/auth/repository.go:61-68 | a driver error is a unique violation exactly for code 23505, and wrapping does not change that |
| UserStore.Create | internal/auth/repository.go:29-43 | the insert succeeds exactly when the store is up and neither the email nor the id is taken; it then adds exactly this user (its creation time as the column keeps it); a taken email is EmailAlreadyExists; other failures are returned unchanged; a failure changes nothing; the email key stays consistent |
| UserStore.FindByEmail | internal/auth/repository.go:45-58 | returns the stored user for a known email; an unknown email, or a no-rows error however wrapped, is UserNotFound; other errors pass through |
| UserStore.CreateThenFind | internal/auth/repository.go:29-58 | what is created is found again by its email: the same id, email and hash, and the creation time as the column keeps it |
| UserStore.SecondCreateWithSameEmailFails | internal/auth/repository.go:35-41 | a second insert under the same email fails with EmailAlreadyExists and leaves the first user in place |
| AuthService.Utf8Width | internal/auth/service.go:59 | one character takes 1 to 4 bytes, and 1 exactly for ASCII |
| AuthService.Utf8Len | internal/auth/service.go:59-61 | the byte length of a password is between its character count and four times that, and equals it for ASCII text |
| AuthService.ValidateEmail | internal/auth/service.go:46-55 | an email is accepted exactly when it is non-empty and parses as an address; otherwise InvalidEmailFormat |
| AuthService.Classes | internal/auth/service.go:63-71 | the loop finds a letter exactly when some character is a letter, and a digit exactly when some character is a digit that is not also a letter |
| AuthService.ValidatePassword | internal/auth/service.go:58-78 | under 8 bytes is PasswordTooShort regardless of content; otherwise the password is accepted exactly when it has a letter and a non-letter digit, else PasswordTooWeak |
| AuthService.PasswordRuleWithDisjointClasses | internal/auth/service.go:63-75 | when no character is both a letter and a digit, the rule is simply "at least 8 bytes, some letter, some digit" |
| AuthService.TestPasswords | internal/auth/service_test.go:96-118 | "Abc123" is too short, "OnlyLetters" too weak, "Supersecret123" accepted |
| AuthService.SignUp | internal/auth/service.go:80-109 | validation errors come first, in order, and change nothing; a hash failure is returned before the insert; success happens exactly when validation, hashing and the insert all succeed, and adds exactly one user holding the hash; a duplicate is reported as EmailAlreadyExists |
| AuthService.InvalidSignUpIgnoresCollaborators | internal/auth/service.go:82-87 | on invalid input the outcome does not depend on the hasher, the id, the clock or the store's health |
| AuthService.Login | internal/auth/service.go:111-127 | (true, nil) exactly for a known email whose stored hash checks; an unknown email is (false, nil); an error only for a lookup failure other than not-found |
| AuthService.GetUserByEmail | internal/auth/service.go:30-36 | with a working store it succeeds exactly for known emails and returns the stored user; errors are the repository's |
| AuthService.SignUpThenLogin | internal/auth/service_test.go:126-155 | with the test hasher, the stored value is not the raw password; the same credentials then log in and a different password does not |
| AuthService.DuplicateSignUp | internal/auth/service.go:101-106 | a second sign-up with the same email fails with EmailAlreadyExists, the table is unchanged and the first user keeps the email |
| AuthToken.GenerateToken | internal/auth/token.go:39-55 | the token is the library's HS256 signature, under the configured secret, over the user's id (as sub and as Subject), email, the issuer, iat = now and exp = now + ttl; a signing failure is returned |
| AuthToken.NewClaims | internal/auth/token.go:42-51 | the claims carry the user id as both the custom and the registered subject, the email and the issuer, and expire one lifetime after issue |
| AuthToken.TokenCarriesNoCredential | internal/auth/token.go:39-55 | the token depends only on the user's id and email, never on the password hash |
| AuthToken.ParseToken | internal/auth/token.go:57-75 | claims come back exactly when the header names an HMAC algorithm and the library verifies a valid token; a non-HMAC algorithm is always refused |
| AuthToken.PinIsTheFamily | internal/auth/token.go:58-64 | the check accepts any HMAC algorithm (HS384 passes) and refuses RS256 and "none" |
| AuthToken.OwnTokensParse | internal/auth/token.go:39-75 | the algorithm pin never refuses the service's own HS256 tokens: a generated token the library accepts parses to exactly the claims the library decoded |
| AuthToken.ServerTokensLastADay | cmd/server/main.go:34 | the server's tokens carry "overengineered-calculator" as issuer and expire 24 hours after issue |
| AuthContext.ContextWithUser | internal/auth/context.go:16-20 | both private keys then hold the given strings, and every other key keeps its value |
| AuthContext.UserFromContext | internal/auth/context.go:24-31 | the identity is reported exactly when both keys hold strings; otherwise ("", "", false) |
| AuthContext.AttachThenRead | internal/auth/context.go:16-31 | what is attached is read back, empty strings included |
| AuthContext.MissingHalfMeansNoIdentity | internal/auth/context.go:25-28 | a context lacking either key yields no identity |
| AuthContext.LatestAttachWins | internal/auth/context.go:16-20 | attaching twice, the later identity is the one read |
| AuthContext.ForeignValuesUnaffected | internal/auth/context.go:6-12 | keys of other types are neither added, removed nor changed by attaching an identity |
| HistoryStore.Create | internal/history/repository.go:24-32 | a failure adds no row, but one the server refused has used up the next id; otherwise exactly one row is appended, keeping the caller's user, expression and result, with the next id and the database time; ids stay increasing |
| HistoryStore.FailedInsertSkipsAnID | internal/history/repository.go:24-32 | an insert the server refuses (a foreign-key violation, say) uses up the next id, so the following row's id skips one; a failure that never reached the server skips nothing |
| HistoryStore.InsertByTime | internal/history/repository.go:46 | placing a row in a listing adds exactly that row and keeps every other |
| HistoryStore.InsertByTimePermutes | internal/history/repository.go:46 | placing a row adds one copy of it to the listing's multiset and nothing else |
| HistoryStore.InsertKeepsDescending | internal/history/repository.go:46 | placing a row by its created_at keeps a created_at-descending listing descending |
| HistoryStore.Newest | internal/history/repository.go:42-49 | the listing holds exactly the user's rows |
| HistoryStore.NewestPermutes | internal/history/repository.go:42-49 | the listing is a permutation of the user's rows: each appears exactly as often as in the table, and no one else's row appears |
| HistoryStore.NewestAfterAppend | internal/history/repository.go:42-49 | appending a row places it by its created_at in its owner's listing and leaves other users' listings unchanged |
| HistoryStore.LaterRowGoesFirst | internal/history/repository.go:46 | a row stamped no earlier than every listed row goes to the front |
| HistoryStore.NewestIsDescending | internal/history/repository.go:46 | the listing is in non-increasing created_at order, whatever order the rows were inserted in |
| HistoryStore.NewestIdsDecrease | internal/history/repository.go:42-49 | in a well-formed store whose clock never ran back, the listing's ids strictly decrease (it is reverse insertion order) |
| HistoryStore.NormaliseLimit | internal/history/repository.go:35-37 | a non-positive limit becomes 20; a positive one is kept |
| HistoryStore.NormaliseOffset | internal/history/repository.go:38-40 | a negative offset becomes 0; any other is kept |
| HistoryStore.ListByUser | internal/history/repository.go:34-64 | fails exactly on a store failure; otherwise it returns the user's listing from position max(offset,0), at most the limit (20 for a non-positive limit), element for element |
| HistoryStore.GetLatestResult | internal/history/repository.go:66-86 | 0 when the user has no rows or the lookup reports no rows; otherwise the result of the user's row with the latest created_at (the last inserted among equal stamps); other errors pass through |
| HistoryStore.LatestExists | internal/history/repository.go:68-74 | every user with a row has a row the latest-result query picks |
| HistoryStore.LatestIsHead | internal/history/repository.go:68-74 | the row the latest-result query picks heads the listing, and the listing is empty exactly when the user has no rows |
| HistoryStore.LatestAgreesWithFirstPage | internal/history/repository.go:66-86 | the latest result equals the result of the first entry of a one-row page, or 0 when that page is empty |
| HistoryStore.CreateBecomesLatest | internal/history/repository.go:24-32 | after an insert stamped no earlier than its owner's rows, the new row's result is its owner's latest result; every other user's latest result is unchanged |
| HistoryStore.EarlierStampedRowIsNotLatest | internal/history/repository.go:68-74 | an insert stamped earlier than one of its owner's rows leaves the owner's latest result as it was |
| HistoryStore.CreateKeepsMonotone | internal/history/repository.go:24-32 | inserting at a time no earlier than every stored row keeps the table in clock order |
| HistoryService.List | internal/history/service.go:23-25 | forwards to the repository's listing unchanged |
| HistoryService.GetLatestResult | internal/history/service.go:27-29 | forwards to the repository's latest result unchanged |
| HistoryService.Record | internal/history/service.go:19-21 | recording fails exactly when the store fails, adding no row but using up an id when the server refused it; otherwise one row holding the entry's user, expression and result is appended |
| Calculator.ApplyOperation | internal/calculator/service.go:56-76 | the four tokens are accepted, except DIVIDE by 0; an unknown token is InvalidOperation and division by 0 is DivisionByZero; the result is prev+num, prev-num or prev*num, or the quotient q with q*num == prev; the expression is "prev op num" |
| Calculator.UndoRestoresPrevious | internal/calculator/service.go:56-76 | in exact arithmetic, with a non-zero operand, applying the inverse operation to the new total restores the previous total |
| Calculator.Calculate | internal/calculator/service.go:27-54 | a read failure, a refused operation or a write failure is returned, in that order, and adds no row; only a write the server refused uses up an id; success happens exactly when all three steps succeed, and then exactly one row is appended holding the caller's id and the answered expression and result, computed from the previous total |
| Calculator.AnswerBecomesRunningTotal | internal/calculator/service.go:27-54 | a step whose read and operation are accepted succeeds; if it is stamped no earlier than the user's previous entries, the user's next starting total is the answer just given; other users' totals are unchanged |
| Calculator.ClockRunBackKeepsOldTotal | internal/calculator/service.go:27-54 | a step stamped earlier than one of the user's entries is recorded, but the next starting total stays the one the query picked before |
| Calculator.RefusalNeverWrites | internal/calculator/service_test.go:105-141 | DIVIDE by 0 and unknown tokens are refused with their errors and write no history, whatever the store would have done |
| Calculator.AddFromEmptyHistory | internal/calculator/service_test.go:50-75 | with no history, ADD 1 answers 1 as "0 + 1" and records exactly that one entry for the user |
| Calculator.TenMinusThree | internal/calculator/service.go:62-63 | SUBTRACT 3 from 10 gives 7 as "10 - 3" |
| Calculator.SubtractFromTen | internal/calculator/service_test.go:78-102 | when the user's latest history entry holds 10, SUBTRACT 3 answers 7 as "10 - 3" |
| Calculator.TokensAreCaseSensitive | internal/calculator/model.go:5-10 | "add" and "BOGUS" are InvalidOperation: tokens match exactly |
| Middleware.Chain | internal/http/middleware.go:14-20 | the first middleware listed is the outermost; no middleware gives the handler itself; two give m1(m2(h)) |
| Middleware.FirstSpace | internal/http/middleware.go:32 | the position found is a space, with no space before it, or the end when there is none |
| Middleware.SplitOnFirstSpace | internal/http/middleware.go:32 | text with no space is one part; otherwise two parts that rejoin with one space into the original, the first part holding no space |
| Middleware.BearerToken | internal/http/middleware.go:32-38 | a token is found exactly when the header has a space and the text before the first space is "Bearer" in any case; the header is then scheme, space, token |
| Middleware.TokenIsRestAfterFirstSpace | internal/http/middleware.go:32-38 | after a space-free scheme and one space, the token is everything left, more spaces included |
| Middleware.AuthMiddleware | internal/http/middleware.go:23-25 | the middleware runs the bearer check around whatever handler it wraps |
| Middleware.Authenticate | internal/http/middleware.go:23-52 | a missing header, a malformed header and a refused token each get their 401 message; otherwise the wrapped handler runs with the token's user id and email readable from the context |
| Middleware.RejectionIgnoresNext | internal/http/middleware.go:26-45 | a rejected request gets a 401 that does not depend on the wrapped handler |
| Middleware.SchemeMatchedInAnyCase | internal/http/middleware.go:33 | any spelling of "Bearer" in mixed letter case, then a space and t, yields the token t |
| Middleware.MalformedHeaders | internal/http/middleware.go:32-36 | "Basic <t>" and a bare "Bearer" yield no token |
| AuthHandler.SignUpErrorResponse | internal/auth/handler.go:39-81 | 400 exactly when one of the four sentinels is on the error's chain; the first match in the order email format, too short, too weak, already exists picks the field and message; anything else is a 500 "internal error" |
| AuthHandler.SignUp | internal/auth/handler.go:17-87 | a method other than POST is 405 and an undecodable body is 400; the reply is 200 "ok" exactly when the service accepts; service errors go through the error table |
| AuthHandler.SignUpReportsTheFieldAtFault | internal/auth/handler.go:42-63 | through the real service, a bad email, a short password and a weak password each reach the client as a 400 naming the field |
| AuthHandler.TakenEmailIsReported | internal/auth/handler.go:64-70 | a sign-up under a taken email reaches the client as a 400 "email already exists" on the email field |
| AuthHandler.StoreOutageIsInternal | internal/auth/handler.go:71-77 | any database failure that is not a unique violation and carries none of the four sentinels reaches the client as a 500 "internal error" with no field |
| AuthHandler.Login | internal/auth/handler.go:89-130 | a method other than POST is 405 and an undecodable body is 400; the reply is 200 exactly when every call made succeeded, else 500 "internal error"; "passed" exactly for correct credentials, with the token generated for the looked-up user, else "failed" with no token |
| AuthHandler.LoginHidesWhichAccountsExist | internal/auth/handler.go:101-109 | an unknown email and a wrong password get the same 200 "failed" reply |
| AuthHandler.CorrectCredentialsGetTheUsersToken | internal/auth/handler.go:109-126 | correct credentials get 200 "passed" with the token signed over claims naming the stored user's id and email |
| AuthHandler.SigningFailureIsInternal | internal/auth/handler.go:117-122 | when signing fails, a correct login is a 500 with no token |
| CalcHandler.Calculate | internal/calculator/handler.go:19-59 | a method other than POST is 405; no identity is 401, checked before the body; a bad body is 400; the service is asked for the context's user id; the bare sentinels are 400s; any other error is a 500 carrying the error's text; success is 200 with the result |
| CalcHandler.UnauthenticatedIgnoresBodyAndService | internal/calculator/handler.go:25-35 | whenever the context yields no identity (a key missing or holding a non-string), the 401 does not depend on the body or the service |
| CalcHandler.WrappedSentinelIsInternal | internal/calculator/handler.go:38-54 | a division-by-zero error wrapped with %w is matched by errors.Is, but the handler's == comparison misses it, so the reply is a 500 with the wrapper's text |
| CalcHandler.ServiceErrorsOverTheWire | internal/calculator/handler.go:37-55 | through the real service: an unknown token is 400 "invalid operation", DIVIDE by 0 is 400 "division by zero", and a history read failure is a 500 carrying its text |
| CalcHandler.AnswerIsWhatWasRecorded | internal/calculator/handler.go:57-58 | for a known operation that is not a division by zero, the reply is a 200 holding exactly the expression and result of the history row just appended for the caller |
| HistoryHandler.Atoi | internal/history/handler.go:31 | a text is accepted exactly when it is an optional sign followed by at least one decimal digit and its value fits in 64 bits; the result is that value |
| HistoryHandler.AtoiInvertsItoa | internal/history/handler.go:31 | parsing the decimal text of n gives n back when n fits in 64 bits, and fails otherwise |
| HistoryHandler.ItoaInvertsAtoi | internal/history/handler.go:38 | on canonical text (no plus sign, no leading zero, no "-0"), formatting the parsed value gives the text back |
| HistoryHandler.AtoiAcceptsNonCanonical | internal/history/handler.go:31 | "+7", "007" and "-0" are accepted with the values 7, 7 and 0 |
| HistoryHandler.AtoiRefusesMalformed | internal/history/handler.go:31 | "", a lone sign, spaces, underscores and letters are refused |
| HistoryHandler.ParseLimit | internal/history/handler.go:28-34 | the limit is always positive; it is 20 unless the parameter parses to a positive number, and then it is that number |
| HistoryHandler.ParseOffset | internal/history/handler.go:36-41 | the offset is never negative; it is 0 unless the parameter parses to a positive number, and then it is that number |
| HistoryHandler.ParsedPagingIsAlreadyNormal | internal/history/repository.go:35-40 | the repository's own defaults never change a limit or offset the handler passes |
| HistoryHandler.ZeroAndNegativePaging | internal/history/handler.go:28-41 | "0" as a limit means 20 but as an offset means 0; negative and unparsable values mean the defaults; "5" and "40" are taken as given |
| HistoryHandler.ToItems | internal/history/handler.go:65-75 | one item per entry, in order, with the entry's id, expression and result, the formatted time and the caller's email |
| HistoryHandler.GetHistory | internal/history/handler.go:24-79 | no identity is 401 "unauthorized"; a listing failure is 500 "could not load history"; otherwise 200 with one item per listed entry, in order, copying its id, expression and result, its formatted created_at and the caller's email |
| HistoryHandler.OnlyTheCallersEntries | internal/history/handler.go:43-55 | through the real service, every listed item is one of the caller's own rows and carries the caller's email |
| HistoryHandler.SecondNewestPage | internal/history/handler.go:28-55 | "?limit=1&offset=1" answers exactly the caller's second newest entry, or nothing when there are fewer than two |
| HistoryHandler.StoreFailureIsInternal | internal/history/handler.go:54-63 | a store failure is a 500 "could not load history" whatever the paging parameters |

## Left out

- The `%g` number formatter is an uninterpreted parameter. Results are exact reals, so IEEE 754 rounding, infinities and NaN are not modelled.
- bcrypt is a parameter: hashing may fail and the check is a predicate. Its cost factor and the 72-byte limit are not modelled.
- The JWT library is a parameter: signing, reading the header's algorithm, and verifying the signature and registered claims, expiry included. Encoding and the MAC are not modelled.
- SQL text, `context.Context` cancellation, connection pooling and row scanning are not modelled. Any database failure is the injected `fault`.
- The history table's `created_at` comes from the database clock; it is an input (`now`). Both queries order by it. Ties in `created_at`, where PostgreSQL's order is unspecified, are resolved as reverse insertion order.
- UserStore.Create / UserStore.CreateThenFind: a user's `createdAt` stands for the instant as the `TIMESTAMP` column keeps it, to the microsecond. `time.Now()` (internal/auth/service.go:98) carries nanoseconds, which PostgreSQL rounds away, so a user read back matches the one built by SignUp exactly in id, email and hash only; the rounding itself is not modelled.
- HistoryStore.Create: whether a failed insert used up a serial id is decided by `HistoryStore.DrawsID`: a driver error is taken to mean the server ran the statement and drew the id, any other failure that it did not. A driver error raised before the default is evaluated (a user id that is not UUID text is refused when the parameters are bound), or a connection lost after the draw, would differ.
- HistoryStore.CreateBecomesLatest: a new row becomes the latest only when it is stamped no earlier than its owner's rows. When the database clock runs back, the next calculation starts from the later-stamped older total (`Calculator.ClockRunBackKeepsOldTotal`), as the source's query does.
- HistoryStore.NewestIdsDecrease: ids decrease along the listing only while the clock never ran back; otherwise the listing follows created_at, not ids.
- AuthToken.NewClaims: the struct sets the registered `Subject` to the user id, but the custom `UserID` field is also tagged `sub` at a shallower depth, so JSON encoding keeps only `UserID`. The registered `Subject` never reaches the token. The model does not encode claims, so it keeps the struct as built.
- `ErrInvalidCredentials` (internal/auth/service.go:16) is declared but never returned: a wrong password is `(false, nil)`. It has no counterpart in the model.
- `uuid.NewString()` and `time.Now()` are inputs.
- Query-string decoding is not modelled: `HistoryHandler.Atoi` receives the decoded value. A raw `?limit=+7` decodes to " 7", which is refused; the accepted "+7" of `HistoryHandler.AtoiAcceptsNonCanonical` comes only from `?limit=%2B7`.
- JSON encoding and decoding, response headers and the trailing newline of the JSON encoder are not modelled. A decoded body is an input (`None` when decoding fails), and JSON replies are records of their fields.
- Middleware.BearerToken: strings.EqualFold is modelled as ASCII case folding. No non-ASCII character folds onto a letter of "Bearer", so for this one comparison that is exact.
- The texts of `ErrInvalidEmailFormat`, `ErrPasswordTooShort` and `ErrPasswordTooWeak` are declared in a file that is not part of this model. `Errors.Message` uses placeholders for them; the handlers never send these texts.
- UserStore.Create: an id collision is reported as EmailAlreadyExists, because any unique violation is. The model keeps this but states no separate property about it.
- The zero values Go returns beside an error (empty user, 0, empty result) are not represented: `Result` carries either a value or an error.
- `cmd/server/main.go`, `internal/http/router.go` and `internal/storage/postgres.go` are not part of this model: process wiring, routing, schema bootstrap and the static file server. `Middleware.Chain` is modelled because the router uses it.
- Concurrency (simultaneous requests on one store) is not modelled; each operation is one atomic step.

=== FILE: auth_context.dfy ===
/** Identity propagation through the request context: the middleware attaches
    (userID, email) under two keys of a type private to the auth package, and
    handlers read them back. A context is modelled as its key/value table;
    attaching a value overrides an earlier value under the same key. */
module AuthContext {

  /** A context key: the auth package's private keys, or a key of any other
      type (which can never equal a private one). */
  datatype Key = AuthKey(name: string) | ForeignKey(tag: int)

  /** A context value: a string, or a value of some other type. */
  datatype Value = Str(s: string) | OtherValue(tag: int)

  type Context = map<Key, Value>

  const UserIDKey: Key := AuthKey("userID")
  const EmailKey: Key := AuthKey("email")

  /** What UserFromContext returns. */
  datatype Identity = Identity(userID: string, email: string, ok: bool)

  /** ContextWithUser: the two private keys now hold the strings given; every
      other key keeps what it had. */
  function ContextWithUser(ctx: Context, userID: string, email: string): (r: Context)
    ensures UserIDKey in r && r[UserIDKey] == Str(userID)
    ensures EmailKey in r && r[EmailKey] == Str(email)
    ensures forall k :: k != UserIDKey && k != EmailKey ==> (k in r <==> k in ctx)
    ensures forall k :: k in ctx && k != UserIDKey && k != EmailKey ==> r[k] == ctx[k]
  {
    ctx[UserIDKey := Str(userID)][EmailKey := Str(email)]
  }

  /** UserFromContext: both keys must hold strings; otherwise ("", "", false). */
  function UserFromContext(ctx: Context): (r: Identity)
    ensures r.ok <==> UserIDKey in ctx && ctx[UserIDKey].Str? && EmailKey in ctx && ctx[EmailKey].Str?
    ensures r.ok ==> r.userID == ctx[UserIDKey].s && r.email == ctx[EmailKey].s
    ensures !r.ok ==> r == Identity("", "", false)
  {
    if UserIDKey in ctx && ctx[UserIDKey].Str? && EmailKey in ctx && ctx[EmailKey].Str? then
      Identity(ctx[UserIDKey].s, ctx[EmailKey].s, true)
    else
      Identity("", "", false)
  }

  /** Round trip: what is attached is read back, empty strings included. */
  lemma AttachThenRead(ctx: Context, userID: string, email: string)
    ensures UserFromContext(ContextWithUser(ctx, userID, email)) == Identity(userID, email, true)
  {
  }

  /** A context without the identity, or with only one half of it, yields no identity. */
  lemma MissingHalfMeansNoIdentity(ctx: Context)
    requires UserIDKey !in ctx || EmailKey !in ctx
    ensures UserFromContext(ctx) == Identity("", "", false)
  {
  }

  /** Attaching twice: the most recent identity wins. */
  lemma LatestAttachWins(ctx: Context, u1: string, e1: string, u2: string, e2: string)
    ensures UserFromContext(ContextWithUser(ContextWithUser(ctx, u1, e1), u2, e2)) == Identity(u2, e2, true)
  {
  }

  /** Values of other packages are unaffected by attaching an identity. */
  lemma ForeignValuesUnaffected(ctx: Context, userID: string, email: string, tag: int)
    ensures ForeignKey(tag) in ctx <==> ForeignKey(tag) in ContextWithUser(ctx, userID, email)
    ensures ForeignKey(tag) in ctx ==> ContextWithUser(ctx, userID, email)[ForeignKey(tag)] == ctx[ForeignKey(tag)]
  {
  }
}

=== FILE: auth_handler.dfy ===
/** The sign-up and login endpoints: method check, body decoding, the call into
    the authentication service, and the mapping of its outcome onto a status and
    a JSON reply. JSON decoding is not modelled: the decoded body is an input,
    `None` when decoding failed. The service and token calls are parameters. */
module AuthHandler {
  import opened Errors
  import opened Web
  import UserStore
  import AuthService
  import AuthToken

  /** The decoded request body of both endpoints. */
  datatype Credentials = Credentials(email: string, password: string)

  /** The failure reply of sign-up: "failed", the offending field ("" when the
      field is absent), and the message. */
  function Refused(code: int, field: string, message: string): Response
  {
    Response(code, SignUpReply("failed", field, message))
  }

  /** The sign-up error table: the first of the four sentinels found by
      errors.Is, in the order invalid email, too short, too weak, already
      exists, picks the 400 reply; anything else is an internal error. */
  function SignUpErrorResponse(err: Error): (r: Response)
    ensures r.body.SignUpReply? && r.body.status == "failed"
    ensures r.status == StatusBadRequest <==>
              Is(err, InvalidEmailFormat) || Is(err, PasswordTooShort) || Is(err, PasswordTooWeak) || Is(err, EmailAlreadyExists)
    ensures r.status != StatusBadRequest ==> r == Refused(StatusInternalServerError, "", "internal error")
    ensures Is(err, InvalidEmailFormat) ==> r == Refused(StatusBadRequest, "email", "invalid email format")
    ensures !Is(err, InvalidEmailFormat) && Is(err, PasswordTooShort) ==>
              r == Refused(StatusBadRequest, "password", "password must be at least 8 characters")
    ensures !Is(err, InvalidEmailFormat) && !Is(err, PasswordTooShort) && Is(err, PasswordTooWeak) ==>
              r == Refused(StatusBadRequest, "password", "password must contain at least one letter and one digit")
    ensures !Is(err, InvalidEmailFormat) && !Is(err, PasswordTooShort) && !Is(err, PasswordTooWeak) && Is(err, EmailAlreadyExists) ==>
              r == Refused(StatusBadRequest, "email", "email already exists")
  {
    if Is(err, InvalidEmailFormat) then Refused(StatusBadRequest, "email", "invalid email format")
    else if Is(err, PasswordTooShort) then Refused(StatusBadRequest, "password", "password must be at least 8 characters")
    else if Is(err, PasswordTooWeak) then Refused(StatusBadRequest, "password", "password must contain at least one letter and one digit")
    else if Is(err, EmailAlreadyExists) then Refused(StatusBadRequest, "email", "email already exists")
    else Refused(StatusInternalServerError, "", "internal error")
  }

  /** The sign-up handler. `signUp` is the service call on (email, password). */
  function SignUp(httpMethod: string, body: Option<Credentials>, signUp: (string, string) -> Result<()>): (r: Response)
    ensures httpMethod != MethodPost ==> r == Refused(StatusMethodNotAllowed, "", "method not allowed")
    ensures httpMethod == MethodPost && body.None? ==> r == Refused(StatusBadRequest, "", "invalid request body")
    ensures r.status == StatusOK <==> httpMethod == MethodPost && body.Some? && signUp(body.value.email, body.value.password).Ok?
    ensures r.status == StatusOK ==> r.body == SignUpReply("ok", "", "")
    ensures httpMethod == MethodPost && body.Some? && signUp(body.value.email, body.value.password).Fail? ==>
              r == SignUpErrorResponse(signUp(body.value.email, body.value.password).err)
  {
    if httpMethod != MethodPost then Refused(StatusMethodNotAllowed, "", "method not allowed")
    else if body.None? then Refused(StatusBadRequest, "", "invalid request body")
    else
      var outcome := signUp(body.value.email, body.value.password);
      if outcome.Fail? then SignUpErrorResponse(outcome.err)
      else Response(StatusOK, SignUpReply("ok", "", ""))
  }

  /** The sign-up endpoint wired to the service over one user table. */
  function SignUpEndpoint(s: UserStore.Users, v: AuthService.Validators, hasher: AuthService.Hasher,
                          id: AuthService.Uuid, now: int, fault: Option<Error>, creds: Credentials): Response
  {
    SignUp(MethodPost, Some(creds), (e: string, p: string) => AuthService.SignUp(s, e, p, v, hasher, id, now, fault).outcome)
  }

  /** Each validation failure of the service reaches the client as a 400
      naming the field at fault, whatever the store would have done. */
  lemma SignUpReportsTheFieldAtFault(s: UserStore.Users, creds: Credentials, v: AuthService.Validators,
                                     hasher: AuthService.Hasher, id: AuthService.Uuid, now: int, fault: Option<Error>)
    ensures AuthService.ValidateEmail(creds.email, v).Fail? ==>
              SignUpEndpoint(s, v, hasher, id, now, fault, creds) == Refused(StatusBadRequest, "email", "invalid email format")
    ensures AuthService.ValidateEmail(creds.email, v).Ok? && AuthService.Utf8Len(creds.password) < AuthService.MinPasswordBytes ==>
              SignUpEndpoint(s, v, hasher, id, now, fault, creds)
              == Refused(StatusBadRequest, "password", "password must be at least 8 characters")
    ensures AuthService.ValidateEmail(creds.email, v).Ok? && AuthService.ValidatePassword(creds.password, v) == Fail(PasswordTooWeak) ==>
              SignUpEndpoint(s, v, hasher, id, now, fault, creds)
              == Refused(StatusBadRequest, "password", "password must contain at least one letter and one digit")
  {
  }

  /** A second sign-up under a taken email is a 400 on the email field. */
  lemma TakenEmailIsReported(s: UserStore.Users, creds: Credentials, v: AuthService.Validators,
                             hasher: AuthService.Hasher, id: AuthService.Uuid, now: int)
    requires AuthService.ValidateEmail(creds.email, v).Ok? && AuthService.ValidatePassword(creds.password, v).Ok?
    requires hasher.hash(creds.password).Ok? && creds.email in s.byEmail
    ensures SignUpEndpoint(s, v, hasher, id, now, None, creds) == Refused(StatusBadRequest, "email", "email already exists")
  {
  }

  /** A store failure that is neither a duplicate email nor one of the four
      sentinels the handler looks for reaches the client as a 500 with no
      field. */
  lemma StoreOutageIsInternal(s: UserStore.Users, creds: Credentials, v: AuthService.Validators,
                              hasher: AuthService.Hasher, id: AuthService.Uuid, now: int, down: Error)
    requires AuthService.ValidateEmail(creds.email, v).Ok? && AuthService.ValidatePassword(creds.password, v).Ok?
    requires hasher.hash(creds.password).Ok?
    requires !UserStore.IsUniqueViolation(down)
    requires !Is(down, InvalidEmailFormat) && !Is(down, PasswordTooShort) && !Is(down, PasswordTooWeak)
    requires !Is(down, EmailAlreadyExists)
    ensures SignUpEndpoint(s, v, hasher, id, now, Some(down), creds) == Refused(StatusInternalServerError, "", "internal error")
  {
  }

  /** The login handler: `login` is the service's three-way check, `getUser`
      the lookup by email and `generate` the token service. */
  function Login(httpMethod: string, body: Option<Credentials>, login: (string, string) -> Result<bool>,
                 getUser: string -> Result<UserStore.User>, generate: UserStore.User -> Result<string>): (r: Response)
    ensures httpMethod != MethodPost ==> r == HttpError("method not allowed", StatusMethodNotAllowed)
    ensures httpMethod == MethodPost && body.None? ==> r == HttpError("invalid body", StatusBadRequest)
    // the reply is written only when every call that was made succeeded
    ensures r.status == StatusOK <==>
              && httpMethod == MethodPost && body.Some?
              && login(body.value.email, body.value.password).Ok?
              && (login(body.value.email, body.value.password).value ==>
                    getUser(body.value.email).Ok? && generate(getUser(body.value.email).value).Ok?)
    ensures httpMethod == MethodPost && body.Some? && r.status != StatusOK ==>
              r == HttpError("internal error", StatusInternalServerError)
    // "passed" exactly for correct credentials, and then with a token for that user
    ensures r.status == StatusOK ==>
              && r.body.LoginReply?
              && (r.body.status == "passed" <==> login(body.value.email, body.value.password) == Ok(true))
              && (r.body.status == "passed" ==> r.body.token == generate(getUser(body.value.email).value).value)
              && (r.body.status != "passed" ==> r.body == LoginReply("failed", ""))
  {
    if httpMethod != MethodPost then HttpError("method not allowed", StatusMethodNotAllowed)
    else if body.None? then HttpError("invalid body", StatusBadRequest)
    else
      var ok := login(body.value.email, body.value.password);
      if ok.Fail? then HttpError("internal error", StatusInternalServerError)
      else if !ok.value then Response(StatusOK, LoginReply("failed", ""))
      else
        var user := getUser(body.value.email);
        if user.Fail? then HttpError("internal error", StatusInternalServerError)
        else
          var token := generate(user.value);
          if token.Fail? then HttpError("internal error", StatusInternalServerError)
          else Response(StatusOK, LoginReply("passed", token.value))
  }

  /** The login endpoint wired to the service and token service over one user
      table, with a working store. */
  function LoginEndpoint(s: UserStore.Users, hasher: AuthService.Hasher, cfg: AuthToken.Config, jwt: AuthToken.Jwt,
                         now: int, httpMethod: string, body: Option<Credentials>): Response
  {
    Login(httpMethod, body,
          (e: string, p: string) => AuthService.Login(s, e, p, hasher, None),
          (e: string) => AuthService.GetUserByEmail(s, e, None),
          (u: UserStore.User) => AuthToken.GenerateToken(cfg, jwt, u, now))
  }

  /** The reply does not reveal whether an account exists: an unknown email
      and a known email with a wrong password get the same response. */
  lemma LoginHidesWhichAccountsExist(s: UserStore.Users, hasher: AuthService.Hasher, cfg: AuthToken.Config, jwt: AuthToken.Jwt,
                                     now: int, unknown: Credentials, wrong: Credentials)
    requires unknown.email !in s.byEmail
    requires wrong.email in s.byEmail && !hasher.check(s.byEmail[wrong.email].password, wrong.password)
    ensures LoginEndpoint(s, hasher, cfg, jwt, now, MethodPost, Some(unknown))
            == LoginEndpoint(s, hasher, cfg, jwt, now, MethodPost, Some(wrong))
            == Response(StatusOK, LoginReply("failed", ""))
  {
  }

  /** Correct credentials get the token signed for the stored user: its claims
      name that user's id and email. */
  lemma CorrectCredentialsGetTheUsersToken(s: UserStore.Users, hasher: AuthService.Hasher, cfg: AuthToken.Config,
                                           jwt: AuthToken.Jwt, now: int, creds: Credentials)
    requires UserStore.Valid(s)
    requires creds.email in s.byEmail && hasher.check(s.byEmail[creds.email].password, creds.password)
    requires AuthToken.GenerateToken(cfg, jwt, s.byEmail[creds.email], now).Ok?
    ensures var r := LoginEndpoint(s, hasher, cfg, jwt, now, MethodPost, Some(creds));
            var claims := AuthToken.NewClaims(cfg, s.byEmail[creds.email], now);
            && r.status == StatusOK
            && r.body == LoginReply("passed", jwt.sign(AuthToken.SigningAlg, claims, cfg.secret).value)
            && claims.userID == s.byEmail[creds.email].id && claims.email == creds.email
  {
    assert UserStore.FindByEmail(s, creds.email, None) == Ok(s.byEmail[creds.email]);
  }

  /** A failing token service turns a correct login into a 500 with no token. */
  lemma SigningFailureIsInternal(s: UserStore.Users, hasher: AuthService.Hasher, cfg: AuthToken.Config,
                                 jwt: AuthToken.Jwt, now: int, creds: Credentials)
    requires creds.email in s.byEmail && hasher.check(s.byEmail[creds.email].password, creds.password)
    requires AuthToken.GenerateToken(cfg, jwt, s.byEmail[creds.email], now).Fail?
    ensures LoginEndpoint(s, hasher, cfg, jwt, now, MethodPost, Some(creds)) == HttpError("internal error", StatusInternalServerError)
  {
    assert UserStore.FindByEmail(s, creds.email, None) == Ok(s.byEmail[creds.email]);
  }
}

=== FILE: auth_service.dfy ===
/** The authentication service: sign-up validation and persistence, and the
    three-way login outcome. The address parser, the Unicode letter and digit
    tables and the password hasher are collaborators given as parameters; a
    fresh user id and the current time are given as inputs. */
module AuthService {
  import opened Errors
  import opened UserStore

  /** The minimum password length, counted in bytes of its UTF-8 encoding. */
  const MinPasswordBytes: nat := 8

  /** net/mail.ParseAddress acceptance, and unicode.IsLetter / unicode.IsDigit. */
  datatype Validators = Validators(parseAddress: string -> bool, isLetter: char -> bool, isDigit: char -> bool)

  /** HashPassword (which may fail) and CheckPassword (true when the error is nil). */
  datatype Hasher = Hasher(hash: string -> Result<string>, check: (string, string) -> bool)

  /** A value of uuid.NewString: 36 characters, so never empty. */
  type Uuid = s: string | |s| == 36 witness "00000000-0000-0000-0000-000000000000"

  /** The number of bytes UTF-8 uses for one character. */
  function Utf8Width(c: char): (w: nat)
    ensures 1 <= w <= 4
    ensures w == 1 <==> (c as int) < 0x80
  {
    if (c as int) < 0x80 then 1
    else if (c as int) < 0x800 then 2
    else if (c as int) < 0x10000 then 3
    else 4
  }

  /** `len` of a Go string holding `s` as UTF-8. */
  function Utf8Len(s: string): (n: nat)
    ensures |s| <= n <= 4 * |s|
    ensures (forall i :: 0 <= i < |s| ==> (s[i] as int) < 0x80) ==> n == |s|
  {
    if s == [] then 0 else Utf8Len(s[..|s| - 1]) + Utf8Width(s[|s| - 1])
  }

  /** validateEmail: the empty string and anything the parser rejects are refused. */
  function ValidateEmail(email: string, v: Validators): (r: Result<()>)
    ensures r.Ok? <==> email != "" && v.parseAddress(email)
    ensures r.Fail? ==> r.err == InvalidEmailFormat
  {
    if email == "" then Fail(InvalidEmailFormat)
    else if !v.parseAddress(email) then Fail(InvalidEmailFormat)
    else Ok(())
  }

  /** The loop over the decoded runes: the first flag records a letter, the
      second a digit that is not also a letter (the letter case is tested first). */
  function Classes(s: string, v: Validators): (r: (bool, bool))
    ensures r.0 <==> exists i :: 0 <= i < |s| && v.isLetter(s[i])
    ensures r.1 <==> exists i :: 0 <= i < |s| && !v.isLetter(s[i]) && v.isDigit(s[i])
  {
    if s == [] then (false, false)
    else
      var init := s[..|s| - 1];
      var c := s[|s| - 1];
      var (hasLetter, hasDigit) := Classes(init, v);
      assert forall i :: 0 <= i < |init| ==> init[i] == s[i];
      if v.isLetter(c) then (true, hasDigit)
      else if v.isDigit(c) then (hasLetter, true)
      else (hasLetter, hasDigit)
  }

  /** validatePassword: fewer than 8 bytes is "too short" before any character
      is looked at; otherwise a letter and a digit must both occur. */
  function ValidatePassword(pw: string, v: Validators): (r: Result<()>)
    ensures Utf8Len(pw) < MinPasswordBytes ==> r == Fail(PasswordTooShort)
    ensures Utf8Len(pw) >= MinPasswordBytes ==> r.Ok? || r == Fail(PasswordTooWeak)
    ensures r.Ok? <==> && Utf8Len(pw) >= MinPasswordBytes
                       && (exists i :: 0 <= i < |pw| && v.isLetter(pw[i]))
                       && (exists i :: 0 <= i < |pw| && !v.isLetter(pw[i]) && v.isDigit(pw[i]))
  {
    if Utf8Len(pw) < MinPasswordBytes then Fail(PasswordTooShort)
    else
      var (hasLetter, hasDigit) := Classes(pw, v);
      if !hasLetter || !hasDigit then Fail(PasswordTooWeak) else Ok(())
  }

  /** With Unicode's tables no rune is both a letter and a digit, and then the
      rule is simply "some letter and some digit". */
  lemma PasswordRuleWithDisjointClasses(pw: string, v: Validators)
    requires forall c :: !(v.isLetter(c) && v.isDigit(c))
    ensures ValidatePassword(pw, v).Ok? <==> && Utf8Len(pw) >= MinPasswordBytes
                                             && (exists i :: 0 <= i < |pw| && v.isLetter(pw[i]))
                                             && (exists i :: 0 <= i < |pw| && v.isDigit(pw[i]))
  {
  }

  /** The service tests' passwords, under tables where ASCII letters are
      letters and ASCII digits are digits: "Abc123" is too short,
      "OnlyLetters" too weak, "Supersecret123" accepted. */
  lemma TestPasswords(v: Validators)
    requires forall c: char :: ('a' <= c <= 'z' || 'A' <= c <= 'Z') ==> v.isLetter(c) && !v.isDigit(c)
    requires forall c: char :: '0' <= c <= '9' ==> v.isDigit(c) && !v.isLetter(c)
    ensures ValidatePassword("Abc123", v) == Fail(PasswordTooShort)
    ensures ValidatePassword("OnlyLetters", v) == Fail(PasswordTooWeak)
    ensures ValidatePassword("Supersecret123", v).Ok?
  {
    var short, letters, good := "Abc123", "OnlyLetters", "Supersecret123";
    assert forall i :: 0 <= i < |short| ==> (short[i] as int) < 0x80;
    assert forall i :: 0 <= i < |letters| ==> (letters[i] as int) < 0x80;
    assert forall i :: 0 <= i < |good| ==> (good[i] as int) < 0x80;
    assert forall i :: 0 <= i < |letters| ==> v.isLetter(letters[i]);
    assert v.isLetter(good[0]) && !v.isLetter(good[11]) && v.isDigit(good[11]);
  }

  /** One outcome of a sign-up: the error (or nil) and the users table afterwards. */
  datatype SignUpStep = SignUpStep(outcome: Result<()>, users: Users)

  /** SignUp: email first, then password, then hash, then insert the new user. */
  function SignUp(s: Users, email: string, password: string, v: Validators, hasher: Hasher,
                  id: Uuid, now: int, fault: Option<Error>): (r: SignUpStep)
    // validation failures come first, in this order, and touch nothing
    ensures ValidateEmail(email, v).Fail? ==> r == SignUpStep(Fail(InvalidEmailFormat), s)
    ensures ValidateEmail(email, v).Ok? && ValidatePassword(password, v).Fail? ==>
              r == SignUpStep(ValidatePassword(password, v), s)
    // a hasher failure is returned before the insert
    ensures ValidateEmail(email, v).Ok? && ValidatePassword(password, v).Ok? && hasher.hash(password).Fail? ==>
              r == SignUpStep(Fail(hasher.hash(password).err), s)
    // the store only changes by adding this one user, holding the hash
    ensures r.outcome.Fail? ==> r.users == s
    ensures r.outcome.Ok? <==> && ValidateEmail(email, v).Ok? && ValidatePassword(password, v).Ok?
                               && hasher.hash(password).Ok?
                               && fault.None? && email !in s.byEmail && !IdTaken(s, id)
    ensures r.outcome.Ok? ==>
              r.users.byEmail == s.byEmail[email := User(id, email, hasher.hash(password).value, now)]
    // the repository's EmailAlreadyExists (however wrapped) is reported as such; other errors pass through
    ensures ValidateEmail(email, v).Ok? && ValidatePassword(password, v).Ok? && hasher.hash(password).Ok? ==>
              var c := Create(s, User(id, email, hasher.hash(password).value, now), fault).0;
              && (c.Fail? && Is(c.err, EmailAlreadyExists) ==> r.outcome == Fail(EmailAlreadyExists))
              && (c.Fail? && !Is(c.err, EmailAlreadyExists) ==> r.outcome == c)
  {
    if ValidateEmail(email, v).Fail? then SignUpStep(ValidateEmail(email, v), s)
    else if ValidatePassword(password, v).Fail? then SignUpStep(ValidatePassword(password, v), s)
    else
      var hashed := hasher.hash(password);
      if hashed.Fail? then SignUpStep(Fail(hashed.err), s)
      else
        var user := User(id, email, hashed.value, now);
        var (created, s') := Create(s, user, fault);
        if created.Fail? then
          SignUpStep(Fail(if Is(created.err, EmailAlreadyExists) then EmailAlreadyExists else created.err), s)
        else
          SignUpStep(Ok(()), s')
  }

  /** On invalid input neither the hasher nor the store is consulted: the
      outcome is the same whatever they would have done. */
  lemma InvalidSignUpIgnoresCollaborators(s: Users, email: string, password: string, v: Validators,
                                          h1: Hasher, h2: Hasher, id1: Uuid, id2: Uuid, now1: int, now2: int,
                                          f1: Option<Error>, f2: Option<Error>)
    requires ValidateEmail(email, v).Fail? || ValidatePassword(password, v).Fail?
    ensures SignUp(s, email, password, v, h1, id1, now1, f1) == SignUp(s, email, password, v, h2, id2, now2, f2)
  {
  }

  /** Login: (false, nil) for an unknown email or a wrong password; a lookup
      failure other than "not found" is an error; (true, nil) only when the
      lookup and the check both succeed. */
  function Login(s: Users, email: string, password: string, hasher: Hasher, fault: Option<Error>): (r: Result<bool>)
    ensures r == Ok(true) <==> fault.None? && email in s.byEmail && hasher.check(s.byEmail[email].password, password)
    ensures r.Fail? <==> fault.Some? && !Is(fault.value, NoRows) && !Is(fault.value, UserNotFound)
    ensures r.Fail? ==> r.err == fault.value
    ensures fault.None? && email !in s.byEmail ==> r == Ok(false)
  {
    var found := FindByEmail(s, email, fault);
    if found.Fail? then
      if Is(found.err, UserNotFound) then Ok(false) else Fail(found.err)
    else
      Ok(hasher.check(found.value.password, password))
  }

  /** GetUserByEmail: the repository's lookup, with its errors unchanged. */
  function GetUserByEmail(s: Users, email: string, fault: Option<Error>): (r: Result<User>)
    ensures fault.None? ==> (r.Ok? <==> email in s.byEmail)
    ensures r.Ok? ==> email in s.byEmail && r.value == s.byEmail[email]
    ensures r.Fail? ==> r == FindByEmail(s, email, fault)
  {
    FindByEmail(s, email, fault)
  }

  /** The test double: "hashing" prefixes "HASHED:", and checking compares. */
  function FakeHasher(): Hasher
  {
    Hasher(pw => Ok("HASHED:" + pw), (hash, pw) => hash == "HASHED:" + pw)
  }

  /** With the test double, the stored value is never the raw password, and
      after a sign-up the same credentials log in while a different password
      does not. */
  lemma SignUpThenLogin(s: Users, email: string, password: string, other: string, v: Validators, id: Uuid, now: int)
    requires SignUp(s, email, password, v, FakeHasher(), id, now, None).outcome.Ok?
    requires other != password
    ensures var s' := SignUp(s, email, password, v, FakeHasher(), id, now, None).users;
            && s'.byEmail[email].password != password
            && Login(s', email, password, FakeHasher(), None) == Ok(true)
            && Login(s', email, other, FakeHasher(), None) == Ok(false)
  {
    var s' := SignUp(s, email, password, v, FakeHasher(), id, now, None).users;
    var stored := s'.byEmail[email].password;
    assert stored == "HASHED:" + password;
    assert |stored| > |password|;
    assert ("HASHED:" + password)[7..] == password && ("HASHED:" + other)[7..] == other;
  }

  /** Signing up twice with one email: the second attempt fails with
      EmailAlreadyExists and the first user stays the only one under it. */
  lemma DuplicateSignUp(s: Users, email: string, p1: string, p2: string, v: Validators, hasher: Hasher,
                        id1: Uuid, id2: Uuid, now1: int, now2: int)
    requires SignUp(s, email, p1, v, hasher, id1, now1, None).outcome.Ok?
    requires ValidatePassword(p2, v).Ok? && hasher.hash(p2).Ok?
    ensures var s1 := SignUp(s, email, p1, v, hasher, id1, now1, None).users;
            var r2 := SignUp(s1, email, p2, v, hasher, id2, now2, None);
            && r2.outcome == Fail(EmailAlreadyExists)
            && r2.users == s1
            && s1.byEmail[email].id == id1
  {
  }
}

=== FILE: auth_token.dfy ===
/** The token service: the claims a login token carries (section 4.1 of
    RFC 7519), signing with HS256 (section 3.2 of RFC 7518), and the checks
    applied when a token is parsed. The JWT library itself (encoding, MAC,
    expiry validation) is a collaborator given as a parameter. */
module AuthToken {
  import opened Errors
  import UserStore

  /** The claims: the user id under "sub" twice over (the custom field and the
      registered subject), the email, the issuer, and the issue and expiry
      times in seconds. */
  datatype Claims = Claims(userID: string, email: string, issuer: string, subject: string, issuedAt: int, expiresAt: int)

  /** The service's configuration: signing secret, issuer, token lifetime. */
  datatype Config = Config(secret: string, issuer: string, ttl: int)

  /** What the server wires in: the issuer name and a 24-hour lifetime. */
  const ServerIssuer: string := "overengineered-calculator"
  const ServerTtl: int := 24 * 60 * 60

  /** The algorithm every token is signed with. */
  const SigningAlg: string := "HS256"

  /** The algorithms of the library's HMAC signing method. */
  const HmacFamily: set<string> := {"HS256", "HS384", "HS512"}

  /** What the library reports for a token whose signature it checked. */
  datatype Verified = Verified(claims: Claims, valid: bool)

  /** The library: sign claims with an algorithm and key; read the algorithm
      named in a token's header (failing for a malformed token or an unknown
      algorithm); check a token's signature and registered claims under a key. */
  datatype Jwt = Jwt(sign: (string, Claims, string) -> Result<string>,
                     algorithm: string -> Result<string>,
                     verify: (string, string) -> Result<Verified>)

  /** The claims built for `user` at time `now`. */
  function NewClaims(cfg: Config, user: UserStore.User, now: int): (c: Claims)
    ensures c.userID == user.id && c.subject == user.id
    ensures c.email == user.email
    ensures c.issuer == cfg.issuer
    ensures c.issuedAt == now && c.expiresAt - c.issuedAt == cfg.ttl
  {
    Claims(user.id, user.email, cfg.issuer, user.id, now, now + cfg.ttl)
  }

  /** GenerateToken: the claims signed with HS256 under the configured secret. */
  function GenerateToken(cfg: Config, jwt: Jwt, user: UserStore.User, now: int): (r: Result<string>)
    ensures r == jwt.sign("HS256", Claims(user.id, user.email, cfg.issuer, user.id, now, now + cfg.ttl), cfg.secret)
  {
    jwt.sign(SigningAlg, NewClaims(cfg, user, now), cfg.secret)
  }

  /** The token says nothing about the password hash or the account's creation
      time: two users with the same id and email get the same token. */
  lemma TokenCarriesNoCredential(cfg: Config, jwt: Jwt, u1: UserStore.User, u2: UserStore.User, now: int)
    requires u1.id == u2.id && u1.email == u2.email
    ensures GenerateToken(cfg, jwt, u1, now) == GenerateToken(cfg, jwt, u2, now)
  {
  }

  /** ParseToken: a token whose header names an algorithm outside the HMAC
      family is refused before any key is handed out; otherwise the library
      checks it under the secret, and the claims come back only when that
      check reports no error and a valid token. */
  function ParseToken(cfg: Config, jwt: Jwt, token: string): (r: Result<Claims>)
    ensures r.Ok? <==> && jwt.algorithm(token).Ok? && jwt.algorithm(token).value in HmacFamily
                       && jwt.verify(token, cfg.secret).Ok? && jwt.verify(token, cfg.secret).value.valid
    ensures r.Ok? ==> r.value == jwt.verify(token, cfg.secret).value.claims
    ensures jwt.algorithm(token).Ok? && jwt.algorithm(token).value !in HmacFamily ==> r.Fail?
  {
    var alg := jwt.algorithm(token);
    if alg.Fail? then Fail(alg.err)
    else if alg.value !in HmacFamily then Fail(Other("unexpected signing method"))
    else
      var checked := jwt.verify(token, cfg.secret);
      if checked.Fail? then Fail(checked.err)
      else if !checked.value.valid then Fail(Other("invalid token"))
      else Ok(checked.value.claims)
  }

  /** The check pins the HMAC family, not HS256 alone: a valid HS384 token is
      accepted, while the same token labelled RS256 or "none" is refused. */
  lemma PinIsTheFamily(cfg: Config, jwt: Jwt, token: string)
    requires jwt.verify(token, cfg.secret).Ok? && jwt.verify(token, cfg.secret).value.valid
    ensures jwt.algorithm(token) == Ok("HS384") ==> ParseToken(cfg, jwt, token).Ok?
    ensures jwt.algorithm(token) == Ok("RS256") ==> ParseToken(cfg, jwt, token).Fail?
    ensures jwt.algorithm(token) == Ok("none") ==> ParseToken(cfg, jwt, token).Fail?
  {
  }

  /** The algorithm pin never refuses the server's own tokens: once the
      library reads a freshly generated token back as HS256 and accepts it
      under the secret, parsing yields exactly the claims the library decoded. */
  lemma OwnTokensParse(cfg: Config, jwt: Jwt, user: UserStore.User, now: int)
    requires GenerateToken(cfg, jwt, user, now).Ok?
    requires var t := GenerateToken(cfg, jwt, user, now).value;
             && jwt.algorithm(t) == Ok(SigningAlg)
             && jwt.verify(t, cfg.secret).Ok? && jwt.verify(t, cfg.secret).value.valid
    ensures var t := GenerateToken(cfg, jwt, user, now).value;
            ParseToken(cfg, jwt, t) == Ok(jwt.verify(t, cfg.secret).value.claims)
  {
  }

  /** The configuration the server wires in for a given secret. */
  function ServerConfig(secret: string): Config
  {
    Config(secret, ServerIssuer, ServerTtl)
  }

  /** The server's tokens name it as their issuer and expire a day after they
      are issued. */
  lemma ServerTokensLastADay(secret: string, user: UserStore.User, now: int)
    ensures var c := NewClaims(ServerConfig(secret), user, now);
            c.issuer == "overengineered-calculator" && c.issuedAt == now && c.expiresAt == now + 86400
  {
  }
}

=== FILE: calc_handler.dfy ===
/** The calculation endpoint: method check, the identity the bearer middleware
    attached, body decoding, the call into the calculator service, and the
    mapping of its error onto a status. The decoded body is an input (`None`
    when decoding failed); the service is a parameter taking the user id. */
module CalcHandler {
  import opened Errors
  import opened Web
  import AuthContext
  import Calculator
  import HistoryStore

  /** The service call: (user id, request) to a result or an error. */
  type CalcService = (string, Calculator.CalculationRequest) -> Result<Calculator.CalculationResult>

  /** The handler. Errors are compared with `==`, not errors.Is: only the bare
      sentinels get a 400, and any other error's text is sent back in a 500. */
  function Calculate(httpMethod: string, ctx: AuthContext.Context, body: Option<Calculator.CalculationRequest>,
                     svc: CalcService): (r: Response)
    ensures httpMethod != MethodPost ==> r == HttpError("{\"error\":\"method not allowed\"}", StatusMethodNotAllowed)
    // the identity is checked before the body is read
    ensures httpMethod == MethodPost && !AuthContext.UserFromContext(ctx).ok ==>
              r == HttpError("{\"error\":\"unauthorized\"}", StatusUnauthorized)
    ensures httpMethod == MethodPost && AuthContext.UserFromContext(ctx).ok && body.None? ==>
              r == HttpError("{\"error\":\"invalid body\"}", StatusBadRequest)
    // past those checks the service is asked on behalf of the user in the context
    ensures httpMethod == MethodPost && AuthContext.UserFromContext(ctx).ok && body.Some? ==>
              var answer := svc(AuthContext.UserFromContext(ctx).userID, body.value);
              && (answer.Ok? ==> r == Response(StatusOK, CalcReply(answer.value)))
              && (answer == Fail(InvalidOperation) ==> r == HttpError("{\"error\":\"invalid operation\"}", StatusBadRequest))
              && (answer == Fail(DivisionByZero) ==> r == HttpError("{\"error\":\"division by zero\"}", StatusBadRequest))
              && (answer.Fail? && answer.err != InvalidOperation && answer.err != DivisionByZero ==>
                    r == Response(StatusInternalServerError, ErrorObject(Message(answer.err))))
    ensures r.status == StatusOK <==>
              httpMethod == MethodPost && AuthContext.UserFromContext(ctx).ok && body.Some?
              && svc(AuthContext.UserFromContext(ctx).userID, body.value).Ok?
  {
    if httpMethod != MethodPost then HttpError("{\"error\":\"method not allowed\"}", StatusMethodNotAllowed)
    else
      var who := AuthContext.UserFromContext(ctx);
      if !who.ok then HttpError("{\"error\":\"unauthorized\"}", StatusUnauthorized)
      else if body.None? then HttpError("{\"error\":\"invalid body\"}", StatusBadRequest)
      else
        var answer := svc(who.userID, body.value);
        if answer.Ok? then Response(StatusOK, CalcReply(answer.value))
        else if answer.err == InvalidOperation then HttpError("{\"error\":\"invalid operation\"}", StatusBadRequest)
        else if answer.err == DivisionByZero then HttpError("{\"error\":\"division by zero\"}", StatusBadRequest)
        else Response(StatusInternalServerError, ErrorObject(Message(answer.err)))
  }

  /** Without an identity the response is the same whatever the body and the
      service: neither is looked at. */
  lemma UnauthenticatedIgnoresBodyAndService(ctx: AuthContext.Context, b1: Option<Calculator.CalculationRequest>,
                                             b2: Option<Calculator.CalculationRequest>, s1: CalcService, s2: CalcService)
    requires !AuthContext.UserFromContext(ctx).ok
    ensures Calculate(MethodPost, ctx, b1, s1) == Calculate(MethodPost, ctx, b2, s2)
    ensures Calculate(MethodPost, ctx, b1, s1).status == StatusUnauthorized
  {
  }

  /** A sentinel wrapped with %w is not matched by `==`: a wrapped division by
      zero is answered 500 with the wrapper's text, not 400. */
  lemma WrappedSentinelIsInternal(ctx: AuthContext.Context, req: Calculator.CalculationRequest, svc: CalcService, text: string)
    requires AuthContext.UserFromContext(ctx).ok
    requires svc(AuthContext.UserFromContext(ctx).userID, req) == Fail(Wrapped(text, DivisionByZero))
    ensures Is(Wrapped(text, DivisionByZero), DivisionByZero)
    ensures Calculate(MethodPost, ctx, Some(req), svc) == Response(StatusInternalServerError, ErrorObject(text))
  {
  }

  /** The endpoint wired to the calculator service over one history store. */
  function Endpoint(h: HistoryStore.Store, fmt: real -> string, now: HistoryStore.Time,
                    latestFault: Option<Error>, recordFault: Option<Error>): CalcService
  {
    (u: string, req: Calculator.CalculationRequest) => Calculator.Calculate(h, u, req, fmt, now, latestFault, recordFault).answer
  }

  /** End to end: the service's refusals become 400s, its history-store
      failures become 500s carrying the store's error text, and a division
      by zero is refused for the user named in the context. */
  lemma ServiceErrorsOverTheWire(h: HistoryStore.Store, ctx: AuthContext.Context, fmt: real -> string, now: HistoryStore.Time,
                                 req: Calculator.CalculationRequest, text: string)
    requires AuthContext.UserFromContext(ctx).ok
    ensures req.operation !in Calculator.Operations ==>
              Calculate(MethodPost, ctx, Some(req), Endpoint(h, fmt, now, None, None))
              == HttpError("{\"error\":\"invalid operation\"}", StatusBadRequest)
    ensures req.operation == Calculator.OpDivide && req.num == 0.0 ==>
              Calculate(MethodPost, ctx, Some(req), Endpoint(h, fmt, now, None, None))
              == HttpError("{\"error\":\"division by zero\"}", StatusBadRequest)
    ensures Calculate(MethodPost, ctx, Some(req), Endpoint(h, fmt, now, Some(Other(text)), None))
            == Response(StatusInternalServerError, ErrorObject(text))
  {
    var u := AuthContext.UserFromContext(ctx).userID;
    assert UnwrapChain(Other(text)) == [Other(text)];
    assert HistoryStore.GetLatestResult(h, u, Some(Other(text))) == Fail(Other(text));
  }

  /** End to end: a successful call is answered with what the history now
      holds as the user's newest entry. */
  lemma AnswerIsWhatWasRecorded(h: HistoryStore.Store, ctx: AuthContext.Context, fmt: real -> string, now: HistoryStore.Time,
                                req: Calculator.CalculationRequest)
    requires AuthContext.UserFromContext(ctx).ok
    requires req.operation in Calculator.Operations && !(req.operation == Calculator.OpDivide && req.num == 0.0)
    ensures var r := Calculate(MethodPost, ctx, Some(req), Endpoint(h, fmt, now, None, None));
            var step := Calculator.Calculate(h, AuthContext.UserFromContext(ctx).userID, req, fmt, now, None, None);
            var last := step.history.rows[|step.history.rows| - 1];
            && r.status == StatusOK
            && r.body == CalcReply(Calculator.CalculationResult(last.expression, last.result))
            && last.userID == AuthContext.UserFromContext(ctx).userID
  {
  }
}

=== FILE: calculator.dfy ===
/** The calculator: the operation tokens and request/result records, and the
    service that applies one operation to the user's running total and records
    the step in the history before answering.

    Numbers are reals (IEEE rounding is not modelled) and `fmt` stands for the
    `%g` number formatter, which this model leaves uninterpreted. */
module Calculator {
  import opened Errors
  import HistoryStore
  import HistoryService

  /** An open string type: any token can be sent, only four are recognised. */
  type Operation = string

  const OpAdd: Operation := "ADD"
  const OpSubtract: Operation := "SUBTRACT"
  const OpMultiply: Operation := "MULTIPLY"
  const OpDivide: Operation := "DIVIDE"

  const Operations: set<Operation> := {OpAdd, OpSubtract, OpMultiply, OpDivide}

  datatype CalculationRequest = CalculationRequest(num: real, operation: Operation)

  datatype CalculationResult = CalculationResult(expression: string, result: real)

  /** The infix symbol the expression shows for a recognised operation. */
  function Symbol(op: Operation): string
    requires op in Operations
  {
    if op == OpAdd then "+"
    else if op == OpSubtract then "-"
    else if op == OpMultiply then "*"
    else "/"
  }

  /** The text of a step: the previous total, the symbol, the operand. */
  function Expression(prev: real, op: Operation, num: real, fmt: real -> string): string
    requires op in Operations
  {
    fmt(prev) + " " + Symbol(op) + " " + fmt(num)
  }

  /** applyOperation: the previous total is always the left operand; DIVIDE by
      zero and unknown tokens are refused. */
  function ApplyOperation(prev: real, num: real, op: Operation, fmt: real -> string): (r: Result<(real, string)>)
    ensures r.Ok? <==> op in Operations && !(op == OpDivide && num == 0.0)
    ensures op !in Operations ==> r == Fail(InvalidOperation)
    ensures op == OpDivide && num == 0.0 ==> r == Fail(DivisionByZero)
    ensures r.Ok? ==> r.value.1 == Expression(prev, op, num, fmt)
    ensures r.Ok? && op == OpAdd ==> r.value.0 == prev + num
    ensures r.Ok? && op == OpSubtract ==> r.value.0 == prev - num
    ensures r.Ok? && op == OpMultiply ==> r.value.0 == prev * num
    ensures r.Ok? && op == OpDivide ==> r.value.0 * num == prev
  {
    if op == OpAdd then
      Ok((prev + num, fmt(prev) + " + " + fmt(num)))
    else if op == OpSubtract then
      Ok((prev - num, fmt(prev) + " - " + fmt(num)))
    else if op == OpMultiply then
      Ok((prev * num, fmt(prev) + " * " + fmt(num)))
    else if op == OpDivide then
      if num == 0.0 then Fail(DivisionByZero)
      else Ok((prev / num, fmt(prev) + " / " + fmt(num)))
    else
      Fail(InvalidOperation)
  }

  /** The operation that undoes `op` with the same operand. */
  function Inverse(op: Operation): Operation
    requires op in Operations
  {
    if op == OpAdd then OpSubtract
    else if op == OpSubtract then OpAdd
    else if op == OpMultiply then OpDivide
    else OpMultiply
  }

  /** Each step can be undone: applying the inverse operation with the same
      operand to the new total gives back the previous total (for MULTIPLY and
      DIVIDE, when the operand is not zero). */
  lemma UndoRestoresPrevious(prev: real, num: real, op: Operation, fmt: real -> string)
    requires op in Operations && num != 0.0
    ensures ApplyOperation(prev, num, op, fmt).Ok?
    ensures ApplyOperation(ApplyOperation(prev, num, op, fmt).value.0, num, Inverse(op), fmt).value.0 == prev
  {
    if op == OpMultiply {
      UndoMultiply(prev, num, fmt);
    } else if op == OpDivide {
      UndoDivide(prev, num, fmt);
    }
  }

  /** Dividing by the factor just multiplied in gives the previous total back. */
  lemma UndoMultiply(prev: real, num: real, fmt: real -> string)
    requires num != 0.0
    ensures ApplyOperation(ApplyOperation(prev, num, OpMultiply, fmt).value.0, num, OpDivide, fmt).value.0 == prev
  {
    var next := ApplyOperation(prev, num, OpMultiply, fmt).value.0;
    var back := ApplyOperation(next, num, OpDivide, fmt).value.0;
    CancelNonZeroFactor(back, prev, num, next);
  }

  /** Multiplying by the divisor just divided out gives the previous total back. */
  lemma UndoDivide(prev: real, num: real, fmt: real -> string)
    requires num != 0.0
    ensures ApplyOperation(ApplyOperation(prev, num, OpDivide, fmt).value.0, num, OpMultiply, fmt).value.0 == prev
  {
    var next := ApplyOperation(prev, num, OpDivide, fmt).value.0;
    assert next * num == prev;
  }

  /** A non-zero factor cancels: x * z == w and y * z == w imply x == y. */
  lemma CancelNonZeroFactor(x: real, y: real, z: real, w: real)
    requires z != 0.0 && x * z == w && y * z == w
    ensures x == y
  {
    assert (x * z) / z == x;
    assert (y * z) / z == y;
  }

  /** One outcome of the service: the answer and the history afterwards. */
  datatype Step = Step(answer: Result<CalculationResult>, history: HistoryStore.Store)

  /** Calculate: read the running total (0 when there is none), apply the
      operation, record one history entry, then answer with what was recorded.
      `latestFault` and `recordFault` are the failures of the two history calls. */
  function Calculate(h: HistoryStore.Store, userID: string, req: CalculationRequest, fmt: real -> string,
                     now: HistoryStore.Time, latestFault: Option<Error>, recordFault: Option<Error>): (r: Step)
    // any failure leaves the rows as they were
    ensures r.answer.Fail? ==> r.history.rows == h.rows
    // a failed read is returned as is, before anything else happens
    ensures HistoryStore.ReadFails(latestFault) ==> r == Step(Fail(latestFault.value), h)
    // after a successful read, a refused operation is returned without a write
    ensures !HistoryStore.ReadFails(latestFault) && req.operation !in Operations ==> r == Step(Fail(InvalidOperation), h)
    ensures !HistoryStore.ReadFails(latestFault) && req.operation == OpDivide && req.num == 0.0 ==>
              r == Step(Fail(DivisionByZero), h)
    // a failed write is returned, and the computed result is not; a write the
    // server refused has used up an id
    ensures !HistoryStore.ReadFails(latestFault) && req.operation in Operations
            && !(req.operation == OpDivide && req.num == 0.0) && recordFault.Some? ==>
              && r.answer == Fail(recordFault.value)
              && r.history.nextID == if HistoryStore.DrawsID(recordFault.value) then h.nextID + 1 else h.nextID
    // success: exactly one new entry, holding the caller's id and what is returned
    ensures r.answer.Ok? ==>
              && recordFault.None?
              && r.history.rows == h.rows + [HistoryStore.HistoryEntry(h.nextID, userID, r.answer.value.expression, r.answer.value.result, now)]
              && ApplyOperation(HistoryService.GetLatestResult(h, userID, latestFault).value, req.num, req.operation, fmt)
                 == Ok((r.answer.value.result, r.answer.value.expression))
    ensures r.answer.Ok? <==>
              && !HistoryStore.ReadFails(latestFault)
              && req.operation in Operations && !(req.operation == OpDivide && req.num == 0.0)
              && recordFault.None?
  {
    var prev := HistoryService.GetLatestResult(h, userID, latestFault);
    if prev.Fail? then
      Step(Fail(prev.err), h)
    else
      var applied := ApplyOperation(prev.value, req.num, req.operation, fmt);
      if applied.Fail? then
        Step(Fail(applied.err), h)
      else
        var (newResult, expr) := applied.value;
        var entry := HistoryStore.HistoryEntry(0, userID, expr, newResult, 0);
        var (recorded, h') := HistoryService.Record(h, entry, now, recordFault);
        if recorded.Fail? then
          Step(Fail(recorded.err), h')
        else
          Step(Ok(CalculationResult(expr, newResult)), h')
  }

  /** The running total stays consistent with what clients were told: after a
      successful calculation stamped no earlier than the user's previous
      entries, the next read of the total returns the result just answered;
      other users' totals are untouched in any case. */
  lemma AnswerBecomesRunningTotal(h: HistoryStore.Store, userID: string, req: CalculationRequest, fmt: real -> string,
                                  now: HistoryStore.Time, latestFault: Option<Error>, other: string)
    requires !HistoryStore.ReadFails(latestFault)
    requires req.operation in Operations && !(req.operation == OpDivide && req.num == 0.0)
    ensures var r := Calculate(h, userID, req, fmt, now, latestFault, None);
            && r.answer.Ok?
            && ((forall i :: 0 <= i < |h.rows| && h.rows[i].userID == userID ==> h.rows[i].createdAt <= now) ==>
                  HistoryStore.GetLatestResult(r.history, userID, None) == Ok(r.answer.value.result))
            && (other != userID ==>
                  HistoryStore.GetLatestResult(r.history, other, None) == HistoryStore.GetLatestResult(h, other, None))
  {
    var r := Calculate(h, userID, req, fmt, now, latestFault, None);
    var entry := HistoryStore.HistoryEntry(0, userID, r.answer.value.expression, r.answer.value.result, 0);
    HistoryStore.CreateBecomesLatest(h, entry, now, other);
  }

  /** When the database clock ran back behind one of the user's entries, the
      step's answer is recorded but the next read of the total still returns
      the later-stamped entry's result, so the following step starts from it. */
  lemma ClockRunBackKeepsOldTotal(h: HistoryStore.Store, userID: string, req: CalculationRequest, fmt: real -> string,
                                  now: HistoryStore.Time, latestFault: Option<Error>, k: int)
    requires 0 <= k < |h.rows| && h.rows[k].userID == userID && now < h.rows[k].createdAt
    requires !HistoryStore.ReadFails(latestFault)
    requires req.operation in Operations && !(req.operation == OpDivide && req.num == 0.0)
    ensures Calculate(h, userID, req, fmt, now, latestFault, None).answer.Ok?
    ensures HistoryStore.GetLatestResult(Calculate(h, userID, req, fmt, now, latestFault, None).history, userID, None)
            == HistoryStore.GetLatestResult(h, userID, None)
  {
    var r := Calculate(h, userID, req, fmt, now, latestFault, None);
    var entry := HistoryStore.HistoryEntry(0, userID, r.answer.value.expression, r.answer.value.result, 0);
    HistoryStore.EarlierStampedRowIsNotLatest(h, entry, now, k);
  }

  /** A refused operation writes nothing, whatever the previous total and
      whatever the history store would have done with the write. */
  lemma RefusalNeverWrites(h: HistoryStore.Store, userID: string, req: CalculationRequest, fmt: real -> string,
                           now: HistoryStore.Time, recordFault: Option<Error>)
    requires req.operation !in Operations || (req.operation == OpDivide && req.num == 0.0)
    ensures var r := Calculate(h, userID, req, fmt, now, None, recordFault);
            && r.history == h
            && r.answer == Fail(if req.operation in Operations then DivisionByZero else InvalidOperation)
            && r == Calculate(h, userID, req, fmt, now, None, None)
  {
  }

  /** With no history, ADD 1 answers 1 as "0 + 1" and records that one entry. */
  lemma AddFromEmptyHistory(fmt: real -> string, now: HistoryStore.Time)
    requires fmt(0.0) == "0" && fmt(1.0) == "1"
    ensures var r := Calculate(HistoryStore.EmptyStore(), "user-123", CalculationRequest(1.0, OpAdd), fmt, now, None, None);
            && r.answer == Ok(CalculationResult("0 + 1", 1.0))
            && r.history.rows == [HistoryStore.HistoryEntry(1, "user-123", "0 + 1", 1.0, now)]
  {
    var h := HistoryStore.EmptyStore();
    assert HistoryService.GetLatestResult(h, "user-123", None) == Ok(0.0);
    assert Expression(0.0, OpAdd, 1.0, fmt) == "0 + 1" by {
      assert fmt(0.0) + " " + "+" + " " + fmt(1.0) == "0" + " " + "+" + " " + "1";
    }
  }

  /** 10 - 3 is 7, shown as "10 - 3". */
  lemma TenMinusThree(fmt: real -> string)
    requires fmt(10.0) == "10" && fmt(3.0) == "3"
    ensures ApplyOperation(10.0, 3.0, OpSubtract, fmt) == Ok((7.0, "10 - 3"))
  {
    assert Expression(10.0, OpSubtract, 3.0, fmt) == "10 - 3" by {
      assert fmt(10.0) + " " + "-" + " " + fmt(3.0) == "10" + " " + "-" + " " + "3";
    }
  }

  /** When the user's newest entry holds 10, SUBTRACT 3 answers 7 as "10 - 3". */
  lemma SubtractFromTen(h: HistoryStore.Store, fmt: real -> string, now: HistoryStore.Time)
    requires |h.rows| > 0 && h.rows[|h.rows| - 1].userID == "user-123" && h.rows[|h.rows| - 1].result == 10.0
    requires forall i :: 0 <= i < |h.rows| && h.rows[i].userID == "user-123" ==> h.rows[i].createdAt <= h.rows[|h.rows| - 1].createdAt
    requires fmt(10.0) == "10" && fmt(3.0) == "3"
    ensures Calculate(h, "user-123", CalculationRequest(3.0, OpSubtract), fmt, now, None, None).answer
            == Ok(CalculationResult("10 - 3", 7.0))
  {
    TenMinusThree(fmt);
    var r := Calculate(h, "user-123", CalculationRequest(3.0, OpSubtract), fmt, now, None, None);
    assert HistoryStore.IsLatestOf(h.rows, "user-123", |h.rows| - 1);
    assert HistoryService.GetLatestResult(h, "user-123", None) == Ok(10.0);
    assert r.answer.Ok?;
    assert (r.answer.value.result, r.answer.value.expression) == (7.0, "10 - 3");
  }

  /** Tokens are matched exactly: lower-case "add" and "BOGUS" are refused. */
  lemma TokensAreCaseSensitive(h: HistoryStore.Store, fmt: real -> string, now: HistoryStore.Time)
    ensures Calculate(h, "user-123", CalculationRequest(2.0, "add"), fmt, now, None, None).answer == Fail(InvalidOperation)
    ensures Calculate(h, "user-123", CalculationRequest(2.0, "BOGUS"), fmt, now, None, None).answer == Fail(InvalidOperation)
  {
  }
}

=== FILE: errors.dfy ===
/** Go error values as the service uses them: the package-level sentinel errors,
    the database driver's errors, and wrapping with errors.Is / errors.As lookups
    along the unwrap chain. */
module Errors {

  datatype Option<+T> = None | Some(value: T)

  /** A Go `(T, error)` pair: either the value with a nil error, or an error
      (the zero value Go returns beside an error is not observable here). */
  datatype Result<+T> = Ok(value: T) | Fail(err: Error)

  datatype Error =
    // internal/auth: input validation (declared in a file that is not part of this model)
    | InvalidEmailFormat
    | PasswordTooShort
    | PasswordTooWeak
    // internal/auth/repository.go and service.go
    | EmailAlreadyExists
    | UserNotFound
    // internal/calculator/service.go
    | InvalidOperation
    | DivisionByZero
    // database/sql: a query that matched no row
    | NoRows
    // lib/pq: a server error carrying a SQLSTATE code
    | Pq(code: string, detail: string)
    // any other error (driver, network, library), identified by its text
    | Other(text: string)
    // an error produced by wrapping `inner` (fmt.Errorf with %w)
    | Wrapped(text: string, inner: Error)

  /** The unwrap chain of `e`: `e` itself, then what it wraps, down to an
      error that wraps nothing. */
  function UnwrapChain(e: Error): (c: seq<Error>)
    ensures |c| >= 1 && c[0] == e
    ensures !c[|c| - 1].Wrapped?
  {
    if e.Wrapped? then [e] + UnwrapChain(e.inner) else [e]
  }

  /** errors.Is: `target` occurs somewhere on the unwrap chain of `e`. */
  function Is(e: Error, target: Error): (b: bool)
    ensures b <==> target in UnwrapChain(e)
  {
    e == target || (e.Wrapped? && Is(e.inner, target))
  }

  /** errors.As with a `*pq.Error` target: the SQLSTATE code of the first
      driver error on the unwrap chain, if there is one. */
  function AsPq(e: Error): (r: Option<string>)
    ensures r.Some? <==> exists x :: x in UnwrapChain(e) && x.Pq?
  {
    match e
    case Pq(code, _) =>
      assert e in UnwrapChain(e);
      Some(code)
    case Wrapped(_, inner) =>
      assert UnwrapChain(e) == [e] + UnwrapChain(inner);
      AsPq(inner)
    case _ => None
  }

  /** No driver error occurs on the chain before position `i`. */
  ghost predicate NoPqBefore(c: seq<Error>, i: int)
    requires 0 <= i <= |c|
  {
    forall j :: 0 <= j < i ==> !c[j].Pq?
  }

  /** Below a wrapper the chain is the wrapper followed by the inner chain,
      so "no driver error in the first i+1" is "none in the inner first i". */
  lemma NoPqBeforeShift(e: Error, i: int)
    requires e.Wrapped? && 0 <= i <= |UnwrapChain(e.inner)|
    ensures NoPqBefore(UnwrapChain(e), i + 1) <==> NoPqBefore(UnwrapChain(e.inner), i)
    ensures i < |UnwrapChain(e.inner)| ==> UnwrapChain(e)[i + 1] == UnwrapChain(e.inner)[i]
  {
    var c := UnwrapChain(e);
    var ci := UnwrapChain(e.inner);
    assert c == [e] + ci;
    forall j | 0 <= j < |ci|
      ensures c[j + 1] == ci[j]
    {
    }
    if NoPqBefore(ci, i) {
      forall j | 0 <= j < i + 1
        ensures !c[j].Pq?
      {
        if j > 0 { assert c[j] == ci[j - 1]; }
      }
    }
    if NoPqBefore(c, i + 1) {
      forall j | 0 <= j < i
        ensures !ci[j].Pq?
      {
        assert ci[j] == c[j + 1];
      }
    }
  }

  /** errors.As finds a driver error exactly when one is on the chain, and then
      reports the code of the first one. */
  lemma {:induction false} AsPqFindsFirstDriverError(e: Error)
    ensures AsPq(e).None? <==> NoPqBefore(UnwrapChain(e), |UnwrapChain(e)|)
    ensures AsPq(e).Some? ==>
              exists i :: 0 <= i < |UnwrapChain(e)| && UnwrapChain(e)[i].Pq? && UnwrapChain(e)[i].code == AsPq(e).value
                          && NoPqBefore(UnwrapChain(e), i)
  {
    var c := UnwrapChain(e);
    match e
    case Pq(code, _) =>
      assert c[0].Pq? && NoPqBefore(c, 0);
    case Wrapped(_, inner) =>
      AsPqFindsFirstDriverError(inner);
      var ci := UnwrapChain(inner);
      assert |c| == |ci| + 1;
      NoPqBeforeShift(e, |ci|);
      if AsPq(inner).Some? {
        var i :| 0 <= i < |ci| && ci[i].Pq? && ci[i].code == AsPq(inner).value && NoPqBefore(ci, i);
        NoPqBeforeShift(e, i);
        assert c[i + 1].Pq? && c[i + 1].code == AsPq(e).value && NoPqBefore(c, i + 1);
      }
    case _ =>
      assert c == [e];
  }

  /** The text `err.Error()` would return. The three validation errors are
      declared outside this model; their texts here are placeholders. */
  function Message(e: Error): (m: string)
    // the texts the repository and the calculator service declare
    ensures e == EmailAlreadyExists ==> m == "email already exists"
    ensures e == UserNotFound ==> m == "user not found"
    ensures e == InvalidOperation ==> m == "invalid operation"
    ensures e == DivisionByZero ==> m == "division by zero"
    // database/sql's no-rows text, and lib/pq's prefix before the server's message
    ensures e == NoRows ==> m == "sql: no rows in result set"
    ensures e.Pq? ==> |m| >= 4 && m[..4] == "pq: " && m[4..] == e.detail
    // an error made with %w has the text it was given, not its inner error's
    ensures e.Wrapped? ==> m == e.text
  {
    match e
    case InvalidEmailFormat => "invalid email format"
    case PasswordTooShort => "password too short"
    case PasswordTooWeak => "password too weak"
    case EmailAlreadyExists => "email already exists"
    case UserNotFound => "user not found"
    case InvalidOperation => "invalid operation"
    case DivisionByZero => "division by zero"
    case NoRows => "sql: no rows in result set"
    case Pq(_, detail) => "pq: " + detail
    case Other(text) => text
    case Wrapped(text, _) => text
  }

  /** A wrapped sentinel is still recognised by errors.Is, at any depth. */
  lemma {:induction false} IsSeesThroughWrapping(e: Error, target: Error, texts: seq<string>)
    requires Is(e, target)
    ensures Is(WrapAll(texts, e), target)
    decreases |texts|
  {
    if texts != [] {
      IsSeesThroughWrapping(e, target, texts[1..]);
    }
  }

  /** Wraps `e` once per text, the last text innermost. */
  function WrapAll(texts: seq<string>, e: Error): Error
    decreases |texts|
  {
    if texts == [] then e else Wrapped(texts[0], WrapAll(texts[1..], e))
  }
}

=== FILE: history_handler.dfy ===
/** The history endpoint: the limit and offset query parameters, the identity
    the bearer middleware attached, the listing call, and the mapping of each
    stored entry to a reply item carrying the caller's email. Query-string
    decoding is not modelled: the two parameter values are inputs ("" when
    absent). The service call and the RFC 3339 formatter are parameters. */
module HistoryHandler {
  import opened Errors
  import opened Web
  import AuthContext
  import HistoryStore
  import HistoryService

  const MinInt64: int := -0x8000_0000_0000_0000
  const MaxInt64: int := 0x7fff_ffff_ffff_ffff

  predicate IsDigit(c: char)
  {
    '0' <= c <= '9'
  }

  predicate AllDigits(s: string)
  {
    forall i :: 0 <= i < |s| ==> IsDigit(s[i])
  }

  /** The value of a string of decimal digits, most significant first. */
  function DigitsValue(s: string): nat
    requires AllDigits(s)
  {
    if s == [] then 0 else DigitsValue(s[..|s| - 1]) * 10 + (s[|s| - 1] as int - '0' as int)
  }

  /** The digits after an optional leading sign. */
  function Unsigned(s: string): string
  {
    if |s| > 0 && (s[0] == '-' || s[0] == '+') then s[1..] else s
  }

  /** strconv.Atoi on a 64-bit platform: an optional sign and at least one
      decimal digit, nothing else (no spaces, no underscores), and a value
      that fits in 64 bits. The error value is not observed by the handler. */
  function Atoi(s: string): (r: Option<int>)
    ensures r.Some? ==> MinInt64 <= r.value <= MaxInt64
    ensures r.Some? ==> |Unsigned(s)| >= 1 && AllDigits(Unsigned(s))
    ensures r.Some? ==> r.value == if s[0] == '-' then -(DigitsValue(Unsigned(s)) as int) else DigitsValue(Unsigned(s))
    ensures |Unsigned(s)| >= 1 && AllDigits(Unsigned(s))
            && MinInt64 <= (if s[0] == '-' then -(DigitsValue(Unsigned(s)) as int) else DigitsValue(Unsigned(s))) <= MaxInt64
            ==> r.Some?
  {
    var digits := Unsigned(s);
    if digits == [] || !AllDigits(digits) then None
    else
      var n: int := if s[0] == '-' then -(DigitsValue(digits) as int) else DigitsValue(digits);
      if n < MinInt64 || n > MaxInt64 then None else Some(n)
  }

  function DigitChar(k: int): (c: char)
    requires 0 <= k < 10
    ensures IsDigit(c) && c as int - '0' as int == k
  {
    ('0' as int + k) as char
  }

  /** The shortest decimal text of `n`. */
  function Decimal(n: nat): (d: string)
    ensures |d| >= 1 && AllDigits(d)
    ensures d[0] == '0' ==> d == "0"
  {
    if n < 10 then [DigitChar(n)] else Decimal(n / 10) + [DigitChar(n % 10)]
  }

  /** strconv.Itoa: a minus sign for negatives, then the shortest decimal text. */
  function Itoa(n: int): string
  {
    if n < 0 then "-" + Decimal(-n) else Decimal(n)
  }

  lemma {:induction false} DigitsValueOfDecimal(n: nat)
    ensures DigitsValue(Decimal(n)) == n
    decreases n
  {
    if n >= 10 {
      var d := Decimal(n);
      assert d[..|d| - 1] == Decimal(n / 10);
      DigitsValueOfDecimal(n / 10);
    }
  }

  /** Atoi undoes Itoa on the 64-bit range and refuses everything outside it. */
  lemma AtoiInvertsItoa(n: int)
    ensures Atoi(Itoa(n)) == if MinInt64 <= n <= MaxInt64 then Some(n) else None
  {
    if n < 0 {
      var s := "-" + Decimal(-n);
      assert Unsigned(s) == Decimal(-n);
      DigitsValueOfDecimal(-n);
    } else {
      assert Unsigned(Decimal(n)) == Decimal(n);
      DigitsValueOfDecimal(n);
    }
  }

  /** A digit string with no leading zero has a positive value. */
  lemma {:induction false} LeadingDigitMakesPositive(d: string)
    requires |d| >= 1 && AllDigits(d) && d[0] != '0'
    ensures DigitsValue(d) >= 1
    decreases |d|
  {
    if |d| > 1 {
      LeadingDigitMakesPositive(d[..|d| - 1]);
    }
  }

  lemma {:induction false} DecimalOfDigits(d: string)
    requires |d| >= 1 && AllDigits(d) && (d[0] == '0' ==> d == "0")
    ensures Decimal(DigitsValue(d)) == d
    decreases |d|
  {
    if |d| > 1 {
      var init := d[..|d| - 1];
      assert init[0] == d[0];
      DecimalOfDigits(init);
      LeadingDigitMakesPositive(init);
      var n := DigitsValue(d);
      var k := d[|d| - 1] as int - '0' as int;
      assert n == DigitsValue(init) * 10 + k;
      assert n / 10 == DigitsValue(init) && n % 10 == k;
      assert Decimal(n) == Decimal(DigitsValue(init)) + [DigitChar(k)];
      assert d == init + [d[|d| - 1]];
    } else {
      assert d == [d[0]];
    }
  }

  /** Canonical text: an optional minus sign, no plus sign, no leading zero,
      and no "-0". */
  predicate Canonical(s: string)
  {
    var digits := if |s| > 0 && s[0] == '-' then s[1..] else s;
    && |digits| >= 1 && AllDigits(digits)
    && (digits[0] == '0' ==> digits == "0")
    && !(|s| > 0 && s[0] == '-' && digits == "0")
  }

  /** On canonical text, Itoa undoes Atoi. */
  lemma ItoaInvertsAtoi(s: string)
    requires Canonical(s) && Atoi(s).Some?
    ensures Itoa(Atoi(s).value) == s
  {
    var digits := Unsigned(s);
    DecimalOfDigits(digits);
    if s[0] == '-' {
      LeadingDigitMakesPositive(digits);
      assert s == "-" + digits;
    }
  }

  /** Text Itoa never produces is still accepted: a plus sign, leading zeros,
      minus zero. */
  lemma AtoiAcceptsNonCanonical()
    ensures Atoi("+7") == Some(7) && Atoi("007") == Some(7) && Atoi("-0") == Some(0)
  {
    assert Unsigned("+7") == "7" && "7"[..0] == "";
    assert Unsigned("007") == "007";
    assert "007"[..2] == "00" && "00"[..1] == "0" && "0"[..0] == "";
    assert DigitsValue("0") == 0;
    assert DigitsValue("00") == 0;
    assert DigitsValue("007") == 7;
    assert Unsigned("-0") == "0";
  }

  /** Text with anything but a sign and digits, or with no digit, is refused. */
  lemma AtoiRefusesMalformed()
    ensures Atoi("") == None && Atoi("+") == None && Atoi("-") == None
    ensures Atoi(" 5") == None && Atoi("5 ") == None && Atoi("1_000") == None && Atoi("abc") == None
  {
    assert !IsDigit(" 5"[0]) && !IsDigit("5 "[1]) && !IsDigit("1_000"[1]) && !IsDigit("abc"[0]);
  }

  /** The limit parameter: 20 unless it parses to a positive number. */
  function ParseLimit(v: string): (n: int)
    ensures n > 0
    ensures n == HistoryStore.DefaultLimit <==> Atoi(v).None? || Atoi(v).value <= 0 || Atoi(v).value == HistoryStore.DefaultLimit
    ensures n != HistoryStore.DefaultLimit ==> Atoi(v) == Some(n)
  {
    var parsed := if v != "" then Atoi(v) else None;
    if parsed.Some? && parsed.value > 0 then parsed.value else HistoryStore.DefaultLimit
  }

  /** The offset parameter: 0 unless it parses to a non-negative number. */
  function ParseOffset(v: string): (n: int)
    ensures n >= 0
    ensures n == 0 <==> Atoi(v).None? || Atoi(v).value <= 0
    ensures n != 0 ==> Atoi(v) == Some(n)
  {
    var parsed := if v != "" then Atoi(v) else None;
    if parsed.Some? && parsed.value >= 0 then parsed.value else 0
  }

  /** The handler's defaults are stricter than the repository's, so the
      repository's own normalisation never changes what the handler passes. */
  lemma ParsedPagingIsAlreadyNormal(limitParam: string, offsetParam: string)
    ensures HistoryStore.NormaliseLimit(ParseLimit(limitParam)) == ParseLimit(limitParam)
    ensures HistoryStore.NormaliseOffset(ParseOffset(offsetParam)) == ParseOffset(offsetParam)
  {
  }

  /** A zero limit means the default page, while a zero offset is taken as
      given; a negative or unparsable value means the default for both. */
  lemma ZeroAndNegativePaging()
    ensures ParseLimit("0") == 20 && ParseOffset("0") == 0
    ensures ParseLimit("-5") == 20 && ParseOffset("-5") == 0
    ensures ParseLimit("ten") == 20 && ParseOffset("") == 0
    ensures ParseLimit("5") == 5 && ParseOffset("40") == 40
  {
    assert Unsigned("0") == "0" && Unsigned("-5") == "5" && Unsigned("5") == "5" && Unsigned("40") == "40";
    assert "40"[..1] == "4";
    assert !IsDigit("ten"[0]);
  }

  /** One reply item per entry, in order, each carrying the caller's email. */
  function ToItems(entries: seq<HistoryStore.HistoryEntry>, email: string, rfc3339: HistoryStore.Time -> string): (items: seq<HistoryStore.ResponseEntry>)
    ensures |items| == |entries|
    ensures forall i :: 0 <= i < |items| ==>
              items[i] == HistoryStore.ResponseEntry(entries[i].id, entries[i].expression, entries[i].result, rfc3339(entries[i].createdAt), email)
  {
    if entries == [] then []
    else
      var e := entries[0];
      [HistoryStore.ResponseEntry(e.id, e.expression, e.result, rfc3339(e.createdAt), email)] + ToItems(entries[1..], email, rfc3339)
  }

  /** The listing call: (user id, limit, offset) to entries or an error. */
  type ListService = (string, int, int) -> Result<seq<HistoryStore.HistoryEntry>>

  /** GetHistory. Any HTTP method is served; the identity is checked after
      the parameters are parsed, which cannot fail. */
  function GetHistory(limitParam: string, offsetParam: string, ctx: AuthContext.Context,
                      list: ListService, rfc3339: HistoryStore.Time -> string): (r: Response)
    ensures !AuthContext.UserFromContext(ctx).ok ==> r == Response(StatusUnauthorized, ErrorObject("unauthorized"))
    ensures AuthContext.UserFromContext(ctx).ok ==>
              var who := AuthContext.UserFromContext(ctx);
              var page := list(who.userID, ParseLimit(limitParam), ParseOffset(offsetParam));
              && (page.Fail? ==> r == Response(StatusInternalServerError, ErrorObject("could not load history")))
              && (page.Ok? ==> r.status == StatusOK && r.body.HistoryReply? && |r.body.items| == |page.value|
                               && forall i :: 0 <= i < |page.value| ==>
                                    r.body.items[i] == HistoryStore.ResponseEntry(page.value[i].id, page.value[i].expression,
                                                                                  page.value[i].result, rfc3339(page.value[i].createdAt),
                                                                                  who.email))
    ensures r.status == StatusOK ==> r.body == HistoryReply(r.body.items)
  {
    var limit := ParseLimit(limitParam);
    var offset := ParseOffset(offsetParam);
    var who := AuthContext.UserFromContext(ctx);
    if !who.ok then Response(StatusUnauthorized, ErrorObject("unauthorized"))
    else
      var page := list(who.userID, limit, offset);
      if page.Fail? then Response(StatusInternalServerError, ErrorObject("could not load history"))
      else Response(StatusOK, HistoryReply(ToItems(page.value, who.email, rfc3339)))
  }

  /** The endpoint wired to the history service over one store. */
  function Endpoint(s: HistoryStore.Store, fault: Option<Error>): ListService
  {
    (u: string, limit: int, offset: int) => HistoryService.List(s, u, limit, offset, fault)
  }

  /** End to end: every item is one of the caller's own entries and carries
      the caller's email; no other user's calculation is ever listed. */
  lemma OnlyTheCallersEntries(s: HistoryStore.Store, ctx: AuthContext.Context, limitParam: string, offsetParam: string,
                              rfc3339: HistoryStore.Time -> string)
    requires AuthContext.UserFromContext(ctx).ok
    ensures var r := GetHistory(limitParam, offsetParam, ctx, Endpoint(s, None), rfc3339);
            var who := AuthContext.UserFromContext(ctx);
            && r.status == StatusOK
            && forall i :: 0 <= i < |r.body.items| ==>
                 r.body.items[i].email == who.email
                 && exists j :: 0 <= j < |s.rows| && s.rows[j].userID == who.userID && s.rows[j].id == r.body.items[i].id
  {
    var who := AuthContext.UserFromContext(ctx);
    var page := HistoryService.List(s, who.userID, ParseLimit(limitParam), ParseOffset(offsetParam), None).value;
    var r := GetHistory(limitParam, offsetParam, ctx, Endpoint(s, None), rfc3339);
    forall i | 0 <= i < |r.body.items|
      ensures exists j :: 0 <= j < |s.rows| && s.rows[j].userID == who.userID && s.rows[j].id == r.body.items[i].id
    {
      assert page[i] in page;
      var j :| 0 <= j < |s.rows| && s.rows[j] == page[i];
    }
  }

  /** End to end: "?limit=1&offset=1" answers the caller's second newest
      entry alone, or nothing when the caller has fewer than two. */
  lemma SecondNewestPage(s: HistoryStore.Store, ctx: AuthContext.Context, rfc3339: HistoryStore.Time -> string)
    requires AuthContext.UserFromContext(ctx).ok
    ensures var r := GetHistory("1", "1", ctx, Endpoint(s, None), rfc3339);
            var all := HistoryStore.Newest(s.rows, AuthContext.UserFromContext(ctx).userID);
            && r.status == StatusOK
            && (|all| < 2 ==> r.body.items == [])
            && (|all| >= 2 ==> |r.body.items| == 1 && r.body.items[0].id == all[1].id)
  {
    assert Unsigned("1") == "1";
    assert ParseLimit("1") == 1 && ParseOffset("1") == 1;
  }

  /** A store failure is reported as a 500 whatever the parameters. */
  lemma StoreFailureIsInternal(s: HistoryStore.Store, ctx: AuthContext.Context, limitParam: string, offsetParam: string,
                               rfc3339: HistoryStore.Time -> string, err: Error)
    requires AuthContext.UserFromContext(ctx).ok
    ensures GetHistory(limitParam, offsetParam, ctx, Endpoint(s, Some(err)), rfc3339)
            == Response(StatusInternalServerError, ErrorObject("could not load history"))
  {
  }
}

=== FILE: history_service.dfy ===
/** The history service: a stateless facade that hands every call to the
    repository. It keeps no state of its own, so the store it is given is the
    whole state. */
module HistoryService {
  import opened Errors
  import HistoryStore

  /** Record: the entry goes to the repository unchanged, and the repository's
      error is the service's error. */
  function Record(s: HistoryStore.Store, e: HistoryStore.HistoryEntry, now: HistoryStore.Time, fault: Option<Error>): (r: (Result<HistoryStore.HistoryEntry>, HistoryStore.Store))
    ensures r.0.Fail? <==> fault.Some?
    ensures r.0.Fail? ==> r.0.err == fault.value && r.1.rows == s.rows
    ensures r.0.Fail? ==> r.1.nextID == if HistoryStore.DrawsID(fault.value) then s.nextID + 1 else s.nextID
    ensures r.0.Ok? ==> && r.1.rows == s.rows + [r.0.value]
                        && r.0.value.userID == e.userID
                        && r.0.value.expression == e.expression
                        && r.0.value.result == e.result
  {
    HistoryStore.Create(s, e, now, fault)
  }

  /** List: user, limit and offset reach the repository as given; the service
      itself normalises nothing. */
  function List(s: HistoryStore.Store, userID: string, limit: int, offset: int, fault: Option<Error>): (r: Result<seq<HistoryStore.HistoryEntry>>)
    ensures r == HistoryStore.ListByUser(s, userID, limit, offset, fault)
  {
    HistoryStore.ListByUser(s, userID, limit, offset, fault)
  }

  /** GetLatestResult: the repository's answer, unchanged. */
  function GetLatestResult(s: HistoryStore.Store, userID: string, fault: Option<Error>): (r: Result<real>)
    ensures r == HistoryStore.GetLatestResult(s, userID, fault)
  {
    HistoryStore.GetLatestResult(s, userID, fault)
  }
}

=== FILE: history_store.dfy ===
/** The calculation history: its entry records and the repository over the
    `calc_history` table, modelled as an append-only log. The database assigns
    each stored row its id (from a counter) and its creation time (the `now`
    passed to Create); a database failure is injected as `fault`. */
module HistoryStore {
  import opened Errors

  /** An instant as the database records it. */
  type Time = int

  datatype HistoryEntry = HistoryEntry(id: int, userID: string, expression: string, result: real, createdAt: Time)

  /** One item of the JSON array returned by the history endpoint. */
  datatype ResponseEntry = ResponseEntry(id: int, expression: string, result: real, createdAt: string, email: string)

  /** The page size used when the caller asks for none, or for a non-positive one. */
  const DefaultLimit: int := 20

  /** The table: rows in insertion order, and the next id the serial column hands out. */
  datatype Store = Store(rows: seq<HistoryEntry>, nextID: int)

  function EmptyStore(): Store
  {
    Store([], 1)
  }

  /** Ids are handed out in increasing order and stay below the counter. */
  ghost predicate Valid(s: Store)
  {
    && (forall i :: 0 <= i < |s.rows| ==> s.rows[i].id < s.nextID)
    && (forall i, j :: 0 <= i < j < |s.rows| ==> s.rows[i].id < s.rows[j].id)
  }

  /** The clock that stamps created_at never ran backwards between inserts. */
  ghost predicate Monotone(rows: seq<HistoryEntry>)
  {
    forall i, j :: 0 <= i < j < |rows| ==> rows[i].createdAt <= rows[j].createdAt
  }

  /** Whether a failed INSERT used up a value of the serial id. A driver error
      means the server ran the statement, and the column default is drawn
      before the foreign key and the other constraints are checked; PostgreSQL
      never hands a drawn value back. Any other failure is taken to have
      stopped before the statement ran. */
  predicate DrawsID(err: Error)
  {
    AsPq(err).Some?
  }

  /** Create: inserts UserID, Expression and Result as given; the row's id and
      created_at come from the database and are handed back in the entry. */
  function Create(s: Store, e: HistoryEntry, now: Time, fault: Option<Error>): (r: (Result<HistoryEntry>, Store))
    ensures fault.Some? ==> r.0 == Fail(fault.value) && r.1.rows == s.rows
    ensures fault.Some? ==> r.1.nextID == if DrawsID(fault.value) then s.nextID + 1 else s.nextID
    ensures fault.None? ==> r.0.Ok? && r.1.rows == s.rows + [r.0.value]
    ensures r.0.Ok? ==> var stored := r.0.value;
                        && stored.userID == e.userID && stored.expression == e.expression
                        && stored.result == e.result
                        && stored.id == s.nextID && stored.createdAt == now
    ensures s.rows <= r.1.rows
    ensures Valid(s) ==> Valid(r.1)
  {
    if fault.Some? then
      (Fail(fault.value), Store(s.rows, if DrawsID(fault.value) then s.nextID + 1 else s.nextID))
    else
      var stored := HistoryEntry(s.nextID, e.userID, e.expression, e.result, now);
      (Ok(stored), Store(s.rows + [stored], s.nextID + 1))
  }

  /** Places `x` in a newest-first listing: ahead of the first row whose
      created_at is not later than its own. Among rows stamped at the same
      instant the one inserted last therefore comes first. */
  function InsertByTime(x: HistoryEntry, l: seq<HistoryEntry>): (r: seq<HistoryEntry>)
    ensures |r| == |l| + 1
    ensures forall y :: y in r <==> y == x || y in l
    decreases |l|
  {
    if l == [] || l[0].createdAt <= x.createdAt then [x] + l
    else [l[0]] + InsertByTime(x, l[1..])
  }

  /** The rows of `u` as "WHERE user_id = $1 ORDER BY created_at DESC" returns
      them: each row is placed by its created_at as it is appended. */
  function Newest(rows: seq<HistoryEntry>, u: string): (r: seq<HistoryEntry>)
    ensures |r| <= |rows|
    ensures forall x :: x in r ==> x in rows && x.userID == u
    ensures forall i :: 0 <= i < |rows| && rows[i].userID == u ==> rows[i] in r
  {
    if rows == [] then []
    else
      var last := rows[|rows| - 1];
      var older := Newest(rows[..|rows| - 1], u);
      assert forall i :: 0 <= i < |rows| - 1 ==> rows[i] == rows[..|rows| - 1][i];
      if last.userID == u then InsertByTime(last, older) else older
  }

  /** Appending a row places it by its created_at in its owner's listing and
      leaves every other user's listing as it was. */
  lemma NewestAfterAppend(rows: seq<HistoryEntry>, x: HistoryEntry, u: string)
    ensures Newest(rows + [x], u) == if x.userID == u then InsertByTime(x, Newest(rows, u)) else Newest(rows, u)
  {
    assert (rows + [x])[..|rows|] == rows;
  }

  /** Placing a row adds exactly that row: nothing is dropped or repeated. */
  lemma {:induction false} InsertByTimePermutes(x: HistoryEntry, l: seq<HistoryEntry>)
    ensures multiset(InsertByTime(x, l)) == multiset(l) + multiset{x}
    decreases |l|
  {
    if l == [] || l[0].createdAt <= x.createdAt {
    } else {
      assert l == [l[0]] + l[1..];
      InsertByTimePermutes(x, l[1..]);
    }
  }

  /** The listing holds each of the user's rows exactly as often as the
      table does, and no row of anyone else. */
  lemma {:induction false} NewestPermutes(rows: seq<HistoryEntry>, u: string)
    ensures forall y :: multiset(Newest(rows, u))[y] == if y.userID == u then multiset(rows)[y] else 0
  {
    if rows != [] {
      var init := rows[..|rows| - 1];
      var last := rows[|rows| - 1];
      assert rows == init + [last];
      NewestPermutes(init, u);
      if last.userID == u {
        InsertByTimePermutes(last, Newest(init, u));
      }
    }
  }

  /** A row no earlier than every row of a listing goes to its front. */
  lemma LaterRowGoesFirst(x: HistoryEntry, l: seq<HistoryEntry>)
    requires forall k :: 0 <= k < |l| ==> l[k].createdAt <= x.createdAt
    ensures InsertByTime(x, l) == [x] + l
  {
  }

  /** Non-increasing created_at. */
  ghost predicate Descending(l: seq<HistoryEntry>)
  {
    forall i, j :: 0 <= i < j < |l| ==> l[i].createdAt >= l[j].createdAt
  }

  /** A row at least as late as every row of a descending listing can be put
      in front of it. */
  lemma ConsKeepsDescending(x: HistoryEntry, rest: seq<HistoryEntry>)
    requires Descending(rest)
    requires forall k :: 0 <= k < |rest| ==> rest[k].createdAt <= x.createdAt
    ensures Descending([x] + rest)
  {
    var r := [x] + rest;
    forall i, j | 0 <= i < j < |r| ensures r[i].createdAt >= r[j].createdAt {
      assert r[j] == rest[j - 1];
      if i > 0 {
        assert r[i] == rest[i - 1];
      }
    }
  }

  /** Placing a row by its created_at keeps a listing descending. */
  lemma {:induction false} InsertKeepsDescending(x: HistoryEntry, l: seq<HistoryEntry>)
    requires Descending(l)
    ensures Descending(InsertByTime(x, l))
    decreases |l|
  {
    if l == [] || l[0].createdAt <= x.createdAt {
      forall k | 0 <= k < |l| ensures l[k].createdAt <= x.createdAt {
        assert l[k].createdAt <= l[0].createdAt;
      }
      ConsKeepsDescending(x, l);
    } else {
      var tail := l[1..];
      assert Descending(tail) by {
        forall i, j | 0 <= i < j < |tail| ensures tail[i].createdAt >= tail[j].createdAt {
          assert tail[i] == l[i + 1] && tail[j] == l[j + 1];
        }
      }
      InsertKeepsDescending(x, tail);
      var ins := InsertByTime(x, tail);
      forall k | 0 <= k < |ins| ensures ins[k].createdAt <= l[0].createdAt {
        assert ins[k] in ins;
        if ins[k] != x {
          var m :| 0 <= m < |tail| && tail[m] == ins[k];
          assert tail[m] == l[m + 1];
        }
      }
      ConsKeepsDescending(l[0], ins);
    }
  }

  /** The listing is in created_at-descending order, whatever order the rows
      were inserted in. */
  lemma {:induction false} NewestIsDescending(rows: seq<HistoryEntry>, u: string)
    ensures Descending(Newest(rows, u))
  {
    if rows != [] {
      var older := rows[..|rows| - 1];
      var last := rows[|rows| - 1];
      assert rows == older + [last];
      NewestAfterAppend(older, last, u);
      NewestIsDescending(older, u);
      if last.userID == u {
        InsertKeepsDescending(last, Newest(older, u));
      }
    }
  }

  /** While the database clock never ran back, the listing is the user's rows
      in reverse insertion order, so in a valid store its ids strictly
      decrease and it never repeats a row. */
  lemma {:induction false} NewestIdsDecrease(s: Store, u: string)
    requires Valid(s) && Monotone(s.rows)
    ensures forall i, j :: 0 <= i < j < |Newest(s.rows, u)| ==> Newest(s.rows, u)[i].id > Newest(s.rows, u)[j].id
    decreases |s.rows|
  {
    if s.rows != [] {
      var older := s.rows[..|s.rows| - 1];
      var last := s.rows[|s.rows| - 1];
      assert s.rows == older + [last];
      var prev := Store(older, last.id);
      DropLastKeepsOrder(s);
      NewestAfterAppend(older, last, u);
      NewestIdsDecrease(prev, u);
      if last.userID == u {
        var rest := Newest(older, u);
        LastRowPostdatesListing(s, u);
        LaterRowGoesFirst(last, rest);
        ConsKeepsIdsDecreasing(last, rest);
      }
    }
  }

  /** In a valid store with a monotone clock, the last row has a larger id
      and no earlier stamp than every listed row of the rows before it. */
  lemma LastRowPostdatesListing(s: Store, u: string)
    requires Valid(s) && Monotone(s.rows) && s.rows != []
    ensures var older := s.rows[..|s.rows| - 1];
            var last := s.rows[|s.rows| - 1];
            var rest := Newest(older, u);
            forall k :: 0 <= k < |rest| ==> rest[k].id < last.id && rest[k].createdAt <= last.createdAt
  {
    var older := s.rows[..|s.rows| - 1];
    var last := s.rows[|s.rows| - 1];
    var rest := Newest(older, u);
    forall k | 0 <= k < |rest| ensures rest[k].id < last.id && rest[k].createdAt <= last.createdAt {
      assert rest[k] in rest;
      var m :| 0 <= m < |older| && older[m] == rest[k];
      assert s.rows[m] == rest[k];
    }
  }

  /** Without its last row, a valid store with a monotone clock is still one,
      with the last row's id as its counter. */
  lemma DropLastKeepsOrder(s: Store)
    requires Valid(s) && Monotone(s.rows) && s.rows != []
    ensures var older := s.rows[..|s.rows| - 1];
            Valid(Store(older, s.rows[|s.rows| - 1].id)) && Monotone(older)
  {
    var older := s.rows[..|s.rows| - 1];
    var last := s.rows[|s.rows| - 1];
    forall i | 0 <= i < |older| ensures older[i].id < last.id {
      assert older[i] == s.rows[i];
    }
    forall i, j | 0 <= i < j < |older| ensures older[i].id < older[j].id && older[i].createdAt <= older[j].createdAt {
      assert older[i] == s.rows[i] && older[j] == s.rows[j];
    }
  }

  /** A row with a larger id than every row of a listing with decreasing ids
      can be put in front of it. */
  lemma ConsKeepsIdsDecreasing(x: HistoryEntry, rest: seq<HistoryEntry>)
    requires forall i, j :: 0 <= i < j < |rest| ==> rest[i].id > rest[j].id
    requires forall k :: 0 <= k < |rest| ==> rest[k].id < x.id
    ensures forall i, j :: 0 <= i < j < |[x] + rest| ==> ([x] + rest)[i].id > ([x] + rest)[j].id
  {
    var r := [x] + rest;
    forall i, j | 0 <= i < j < |r| ensures r[i].id > r[j].id {
      assert r[j] == rest[j - 1];
      if i > 0 {
        assert r[i] == rest[i - 1];
      }
    }
  }

  /** A non-positive limit means the default page size. */
  function NormaliseLimit(limit: int): (n: int)
    ensures n > 0
    ensures limit > 0 ==> n == limit
    ensures limit <= 0 ==> n == DefaultLimit
  {
    if limit <= 0 then DefaultLimit else limit
  }

  /** A negative offset means none. */
  function NormaliseOffset(offset: int): (n: int)
    ensures n >= 0
    ensures offset >= 0 ==> n == offset
    ensures offset < 0 ==> n == 0
  {
    if offset < 0 then 0 else offset
  }

  /** ListByUser: the user's rows, newest first, skipping `offset` of them and
      returning at most `limit`; a non-positive limit means 20 and a negative
      offset means 0. */
  function ListByUser(s: Store, userID: string, limit: int, offset: int, fault: Option<Error>): (r: Result<seq<HistoryEntry>>)
    ensures fault.Some? <==> r.Fail?
    ensures fault.Some? ==> r == Fail(fault.value)
    ensures r.Ok? ==> |r.value| <= (if limit <= 0 then DefaultLimit else limit)
    ensures r.Ok? ==> forall x :: x in r.value ==> x in s.rows && x.userID == userID
    ensures r.Ok? ==>
              var all := Newest(s.rows, userID);
              var skip := if offset < 0 then 0 else offset;
              && |r.value| == (if skip >= |all| then 0 else Min(|all| - skip, NormaliseLimit(limit)))
              && forall i :: 0 <= i < |r.value| ==> r.value[i] == all[skip + i]
  {
    if fault.Some? then
      Fail(fault.value)
    else
      var lim := NormaliseLimit(limit);
      var off := NormaliseOffset(offset);
      var all := Newest(s.rows, userID);
      if off >= |all| then Ok([]) else Ok(all[off .. Min(off + lim, |all|)])
  }

  function Min(a: int, b: int): int
  {
    if a <= b then a else b
  }

  /** Row `i` is the one "ORDER BY created_at DESC LIMIT 1" picks for `u`:
      a row of `u` that no row of `u` postdates and, among the rows of `u`
      stamped at that same instant, the one inserted last. */
  ghost predicate IsLatestOf(rows: seq<HistoryEntry>, u: string, i: int)
  {
    && 0 <= i < |rows| && rows[i].userID == u
    && (forall j :: 0 <= j < |rows| && rows[j].userID == u ==> rows[j].createdAt <= rows[i].createdAt)
    && (forall j :: i < j < |rows| && rows[j].userID == u ==> rows[j].createdAt < rows[i].createdAt)
  }

  /** Whether reading a user's newest result fails: only when the query
      fails with something other than "no rows". */
  predicate ReadFails(fault: Option<Error>)
  {
    fault.Some? && !Is(fault.value, NoRows)
  }

  /** GetLatestResult: the result of the user's newest row; a query that finds
      no row (the database reports no rows) yields 0 and no error. */
  function GetLatestResult(s: Store, userID: string, fault: Option<Error>): (r: Result<real>)
    ensures fault.None? && (forall i :: 0 <= i < |s.rows| ==> s.rows[i].userID != userID) ==> r == Ok(0.0)
    ensures fault.None? ==> forall i :: IsLatestOf(s.rows, userID, i) ==> r == Ok(s.rows[i].result)
    ensures fault.Some? && Is(fault.value, NoRows) ==> r == Ok(0.0)
    ensures fault.Some? && !Is(fault.value, NoRows) ==> r == Fail(fault.value)
  {
    var all := Newest(s.rows, userID);
    var raw: Result<real> :=
      if fault.Some? then Fail(fault.value)
      else if all == [] then Fail(NoRows)
      else Ok(all[0].result);
    LatestIsHead(s.rows, userID);
    if raw.Fail? && Is(raw.err, NoRows) then Ok(0.0) else raw
  }

  /** Every user with a row has a latest row. */
  lemma {:induction false} LatestExists(rows: seq<HistoryEntry>, u: string, k: int)
    requires 0 <= k < |rows| && rows[k].userID == u
    ensures exists i :: IsLatestOf(rows, u, i)
    decreases |rows|
  {
    var n := |rows| - 1;
    var older := rows[..n];
    var last := rows[n];
    if last.userID == u && forall j :: 0 <= j < n && rows[j].userID == u ==> rows[j].createdAt <= last.createdAt {
      assert IsLatestOf(rows, u, n);
    } else {
      var w :| 0 <= w < n && rows[w].userID == u && (last.userID == u ==> rows[w].createdAt > last.createdAt);
      assert older[w] == rows[w];
      LatestExists(older, u, w);
      var i :| IsLatestOf(older, u, i);
      forall j | 0 <= j < |rows| && rows[j].userID == u ensures rows[j].createdAt <= rows[i].createdAt {
        if j < n {
          assert older[j] == rows[j];
        } else {
          assert older[w] == rows[w];
        }
      }
      forall j | i < j < |rows| && rows[j].userID == u ensures rows[j].createdAt < rows[i].createdAt {
        if j < n {
          assert older[j] == rows[j];
        } else {
          assert older[w] == rows[w];
        }
      }
      assert older[i] == rows[i];
      assert IsLatestOf(rows, u, i);
    }
  }

  /** The latest row heads the listing, and the listing is empty exactly when
      the user has no rows. */
  lemma {:induction false} LatestIsHead(rows: seq<HistoryEntry>, u: string)
    ensures forall i :: IsLatestOf(rows, u, i) ==> Newest(rows, u) != [] && Newest(rows, u)[0] == rows[i]
    ensures Newest(rows, u) == [] <==> forall i :: 0 <= i < |rows| ==> rows[i].userID != u
  {
    if Newest(rows, u) != [] {
      assert Newest(rows, u)[0] in Newest(rows, u);
    }
    if rows != [] {
      var n := |rows| - 1;
      var older := rows[..n];
      var last := rows[n];
      assert rows == older + [last];
      NewestAfterAppend(older, last, u);
      LatestIsHead(older, u);
      var rest := Newest(older, u);
      forall i | IsLatestOf(rows, u, i) ensures Newest(rows, u) != [] && Newest(rows, u)[0] == rows[i] {
        if i == n {
          forall k | 0 <= k < |rest| ensures rest[k].createdAt <= last.createdAt {
            assert rest[k] in rest;
            var m :| 0 <= m < |older| && older[m] == rest[k];
            assert rows[m] == rest[k];
          }
          LaterRowGoesFirst(last, rest);
        } else {
          assert IsLatestOf(older, u, i) by {
            forall j | 0 <= j < |older| ensures older[j] == rows[j] {
            }
          }
          if last.userID == u {
            assert rest[0] == rows[i] && last.createdAt < rest[0].createdAt;
            assert InsertByTime(last, rest) == [rest[0]] + InsertByTime(last, rest[1..]);
          }
        }
      }
    }
  }

  /** The two "ORDER BY created_at DESC" queries agree: the latest result is the
      result of the first row of the one-row page, or 0 when that page is empty. */
  lemma LatestAgreesWithFirstPage(s: Store, u: string)
    ensures var page := ListByUser(s, u, 1, 0, None).value;
            GetLatestResult(s, u, None) == if page == [] then Ok(0.0) else Ok(page[0].result)
  {
    LatestIsHead(s.rows, u);
  }

  /** After a successful insert stamped no earlier than its owner's rows, the
      new row's result is its owner's latest result; every other user's
      latest result is unchanged in any case. */
  lemma CreateBecomesLatest(s: Store, e: HistoryEntry, now: Time, u: string)
    ensures var s' := Create(s, e, now, None).1;
            && ((forall i :: 0 <= i < |s.rows| && s.rows[i].userID == e.userID ==> s.rows[i].createdAt <= now) ==>
                  GetLatestResult(s', e.userID, None) == Ok(e.result))
            && (u != e.userID ==> GetLatestResult(s', u, None) == GetLatestResult(s, u, None))
  {
    var s' := Create(s, e, now, None).1;
    if forall i :: 0 <= i < |s.rows| && s.rows[i].userID == e.userID ==> s.rows[i].createdAt <= now {
      assert IsLatestOf(s'.rows, e.userID, |s.rows|) by {
        forall j | 0 <= j < |s.rows| ensures s'.rows[j] == s.rows[j] {
        }
      }
    }
    NewestAfterAppend(s.rows, s'.rows[|s.rows|], u);
  }

  /** An insert stamped earlier than one of its owner's rows (the database
      clock ran back) does not change its owner's latest result: the query
      still picks the later-stamped row. */
  lemma EarlierStampedRowIsNotLatest(s: Store, e: HistoryEntry, now: Time, k: int)
    requires 0 <= k < |s.rows| && s.rows[k].userID == e.userID && now < s.rows[k].createdAt
    ensures GetLatestResult(Create(s, e, now, None).1, e.userID, None) == GetLatestResult(s, e.userID, None)
  {
    var s' := Create(s, e, now, None).1;
    LatestExists(s.rows, e.userID, k);
    var i :| IsLatestOf(s.rows, e.userID, i);
    assert forall j :: 0 <= j < |s.rows| ==> s'.rows[j] == s.rows[j];
    assert IsLatestOf(s'.rows, e.userID, i);
  }

  /** Creation keeps the clock order when the database clock did not run back. */
  lemma CreateKeepsMonotone(s: Store, e: HistoryEntry, now: Time)
    requires Monotone(s.rows)
    requires forall i :: 0 <= i < |s.rows| ==> s.rows[i].createdAt <= now
    ensures Monotone(Create(s, e, now, None).1.rows)
  {
  }

  /** Ids are not dense: an insert the server refuses, say for a user id
      missing from `users` (a foreign-key violation), still uses up the next
      id, so the following row gets the one after it. A failure that never
      reached the server uses up nothing. */
  lemma FailedInsertSkipsAnID(s: Store, e1: HistoryEntry, e2: HistoryEntry, t1: Time, t2: Time, err: Error)
    ensures var s1 := Create(s, e1, t1, Some(err)).1;
            var (r2, s2) := Create(s1, e2, t2, None);
            && s1.rows == s.rows
            && r2.Ok?
            && r2.value.id == (if DrawsID(err) then s.nextID + 1 else s.nextID)
            && s2.rows == s.rows + [r2.value]
  {
  }
}

=== FILE: middleware.dfy ===
/** HTTP middleware: composition of middlewares around a handler, and the
    bearer-token middleware that turns an Authorization header into an identity
    in the request context (the bearer scheme of section 2.1 of RFC 6750). */
module Middleware {
  import opened Errors
  import opened Web
  import AuthContext
  import AuthToken

  /** The parts of a request the middleware and handlers look at: the HTTP method,
      the Authorization header ("" when absent), the context, the raw body. */
  datatype Request = Request(httpMethod: string, authorization: string, ctx: AuthContext.Context, body: string)

  type Handler = Request -> Response

  type Middleware = Handler -> Handler

  /** The intended nesting: the first middleware listed is the outermost. */
  function Nest(h: Handler, mws: seq<Middleware>): Handler
    decreases |mws|
  {
    if mws == [] then h else mws[0](Nest(h, mws[1..]))
  }

  /** Chain: wraps the handler from the last middleware to the first, so that
      Chain(h, m1, m2) is m1(m2(h)). */
  method Chain(h: Handler, mws: seq<Middleware>) returns (r: Handler)
    ensures r == Nest(h, mws)
    ensures mws == [] ==> r == h
    ensures |mws| == 2 ==> r == mws[0](mws[1](h))
  {
    r := h;
    var i := |mws|;
    while i > 0
      invariant 0 <= i <= |mws|
      invariant r == Nest(h, mws[i..])
    {
      i := i - 1;
      assert mws[i..][1..] == mws[i + 1..];
      r := mws[i](r);
    }
    if |mws| == 2 {
      assert mws[1..][1..] == [];
    }
  }

  /** The position of the first space, or |s| when there is none. */
  function FirstSpace(s: string): (i: nat)
    ensures i <= |s|
    ensures i < |s| ==> s[i] == ' '
    ensures forall j :: 0 <= j < i ==> s[j] != ' '
  {
    if s == [] then 0
    else if s[0] == ' ' then 0
    else 1 + FirstSpace(s[1..])
  }

  /** strings.SplitN(s, " ", 2): the whole string when it has no space,
      otherwise the text before the first space and everything after it. */
  function SplitOnFirstSpace(s: string): (parts: seq<string>)
    ensures ' ' !in s ==> parts == [s]
    ensures ' ' in s ==> |parts| == 2 && s == parts[0] + " " + parts[1] && ' ' !in parts[0]
  {
    var i := FirstSpace(s);
    if i == |s| then [s]
    else
      assert s == s[..i] + " " + s[i + 1..];
      [s[..i], s[i + 1..]]
  }

  function LowerAscii(c: char): char
  {
    if 'A' <= c <= 'Z' then (c as int + 32) as char else c
  }

  /** strings.EqualFold against an ASCII word. No non-ASCII character folds
      onto a letter of "bearer", so for that word ASCII folding is exact. */
  predicate EqualFoldAscii(a: string, b: string)
  {
    |a| == |b| && forall i :: 0 <= i < |a| ==> LowerAscii(a[i]) == LowerAscii(b[i])
  }

  const BearerScheme: string := "Bearer"

  /** The bearer token carried by an Authorization header: everything after
      the first space, verbatim, provided the text before it is "Bearer" in
      any letter case. */
  function BearerToken(header: string): (r: Option<string>)
    ensures r.Some? <==> ' ' in header && EqualFoldAscii(SplitOnFirstSpace(header)[0], BearerScheme)
    ensures r.Some? ==> header == SplitOnFirstSpace(header)[0] + " " + r.value
  {
    var parts := SplitOnFirstSpace(header);
    if |parts| != 2 || !EqualFoldAscii(parts[0], BearerScheme) then None else Some(parts[1])
  }

  /** A scheme word without spaces, a space, and the rest: the rest is the
      token, whatever it contains (more spaces, or nothing). */
  lemma TokenIsRestAfterFirstSpace(scheme: string, token: string)
    requires ' ' !in scheme
    ensures BearerToken(scheme + " " + token) == (if EqualFoldAscii(scheme, BearerScheme) then Some(token) else None)
  {
    var s := scheme + " " + token;
    assert s[|scheme|] == ' ';
    assert ' ' in s;
    assert forall j :: 0 <= j < |scheme| ==> s[j] == scheme[j];
    assert FirstSpace(s) == |scheme|;
    var parts := SplitOnFirstSpace(s);
    assert parts[0] == s[..|scheme|] == scheme;
    assert parts[1] == s[|scheme| + 1..] == token;
  }

  function Unauthorized(message: string): Response
  {
    Response(StatusUnauthorized, ErrorObject(message))
  }

  /** The request `next` receives: the same request, its context now carrying
      the identity from the token's claims. */
  function WithIdentity(req: Request, claims: AuthToken.Claims): Request
  {
    req.(ctx := AuthContext.ContextWithUser(req.ctx, claims.userID, claims.email))
  }

  /** The bearer middleware's handling of one request. */
  function Authenticate(parse: string -> Result<AuthToken.Claims>, next: Handler, req: Request): (r: Response)
    ensures req.authorization == "" ==> r == Unauthorized("missing Authorization header")
    ensures req.authorization != "" && BearerToken(req.authorization).None? ==>
              r == Unauthorized("invalid Authorization header format")
    ensures BearerToken(req.authorization).Some? && parse(BearerToken(req.authorization).value).Fail? ==>
              r == Unauthorized("invalid or expired token")
    ensures BearerToken(req.authorization).Some? && parse(BearerToken(req.authorization).value).Ok? ==>
              var claims := parse(BearerToken(req.authorization).value).value;
              && r == next(WithIdentity(req, claims))
              && AuthContext.UserFromContext(WithIdentity(req, claims).ctx) == AuthContext.Identity(claims.userID, claims.email, true)
  {
    if req.authorization == "" then
      Unauthorized("missing Authorization header")
    else
      var token := BearerToken(req.authorization);
      if token.None? then
        Unauthorized("invalid Authorization header format")
      else
        var claims := parse(token.value);
        if claims.Fail? then Unauthorized("invalid or expired token")
        else next(WithIdentity(req, claims.value))
  }

  /** AuthMiddleware: wraps `next` in the bearer check. */
  function AuthMiddleware(parse: string -> Result<AuthToken.Claims>): (m: Middleware)
    ensures forall next: Handler, req: Request :: m(next)(req) == Authenticate(parse, next, req)
  {
    (next: Handler) => (req: Request) => Authenticate(parse, next, req)
  }

  /** A rejected request never reaches the wrapped handler: the response is
      the same whatever handler is wrapped. */
  lemma RejectionIgnoresNext(parse: string -> Result<AuthToken.Claims>, n1: Handler, n2: Handler, req: Request)
    requires BearerToken(req.authorization).None? || parse(BearerToken(req.authorization).value).Fail?
    ensures AuthMiddleware(parse)(n1)(req) == AuthMiddleware(parse)(n2)(req)
    ensures AuthMiddleware(parse)(n1)(req).status == StatusUnauthorized
  {
    if req.authorization == "" {
      assert ' ' !in req.authorization;
    }
  }

  /** The scheme is matched in any letter case: any word that folds letter by
      letter onto "bearer" ("bearer", "BEARER", "BeArEr", ...) is accepted, and
      the rest of the header is the token. */
  lemma SchemeMatchedInAnyCase(scheme: string, token: string)
    requires |scheme| == |BearerScheme|
    requires forall i :: 0 <= i < |scheme| ==> LowerAscii(scheme[i]) == LowerAscii(BearerScheme[i])
    ensures BearerToken(scheme + " " + token) == Some(token)
  {
    assert ' ' !in scheme by {
      forall i | 0 <= i < |scheme| ensures scheme[i] != ' ' {
        assert LowerAscii(scheme[i]) != ' ';
      }
    }
    TokenIsRestAfterFirstSpace(scheme, token);
  }

  /** Another scheme, or a header without a space, is malformed. */
  lemma MalformedHeaders(token: string)
    ensures BearerToken("Basic " + token).None?
    ensures BearerToken("Bearer").None?
  {
    assert !EqualFoldAscii("Basic", BearerScheme);
    TokenIsRestAfterFirstSpace("Basic", token);
    assert ' ' !in "Bearer";
  }
}

=== FILE: user_store.dfy ===
/** The user record and the repository over the `users` table, whose id and
    email columns are both unique. The table is modelled as a map keyed by
    email; a database failure is injected as `fault`. */
module UserStore {
  import opened Errors

  datatype User = User(id: string, email: string, password: string, createdAt: int)

  datatype Users = Users(byEmail: map<string, User>)

  /** The SQLSTATE code PostgreSQL reports for a unique-constraint violation. */
  const UniqueViolation: string := "23505"

  /** Each user is filed under its own email. */
  ghost predicate Valid(s: Users)
  {
    forall e :: e in s.byEmail ==> s.byEmail[e].email == e
  }

  predicate IdTaken(s: Users, id: string)
  {
    exists e :: e in s.byEmail && s.byEmail[e].id == id
  }

  /** isUniqueViolation: the first driver error on the chain carries code 23505. */
  function IsUniqueViolation(err: Error): (b: bool)
    ensures b <==> exists i :: 0 <= i < |UnwrapChain(err)| && UnwrapChain(err)[i].Pq? && UnwrapChain(err)[i].code == UniqueViolation
                                && NoPqBefore(UnwrapChain(err), i)
  {
    AsPqFindsFirstDriverError(err);
    var r := AsPq(err);
    if r.Some? then
      r.value == UniqueViolation
    else
      false
  }

  /** The INSERT itself: it violates a unique constraint when the email, or
      the id, is already present. */
  function Insert(s: Users, u: User): Result<Users>
  {
    if u.email in s.byEmail || IdTaken(s, u.id) then
      Fail(Pq(UniqueViolation, "duplicate key value violates unique constraint"))
    else
      Ok(Users(s.byEmail[u.email := u]))
  }

  /** Create: a unique violation becomes EmailAlreadyExists, any other
      database error is returned unchanged. */
  function Create(s: Users, u: User, fault: Option<Error>): (r: (Result<()>, Users))
    ensures r.0.Ok? <==> fault.None? && u.email !in s.byEmail && !IdTaken(s, u.id)
    ensures r.0.Ok? ==> r.1.byEmail == s.byEmail[u.email := u]
    ensures r.0.Fail? ==> r.1 == s
    ensures fault.None? && u.email in s.byEmail ==> r.0 == Fail(EmailAlreadyExists)
    ensures fault.Some? ==> r.0 == Fail(if IsUniqueViolation(fault.value) then EmailAlreadyExists else fault.value)
    ensures Valid(s) ==> Valid(r.1)
  {
    var raw := if fault.Some? then Fail(fault.value) else Insert(s, u);
    if raw.Fail? then
      assert fault.None? ==> IsUniqueViolation(raw.err) by {
        if fault.None? { assert UnwrapChain(raw.err) == [raw.err] && NoPqBefore([raw.err], 0); }
      }
      (Fail(if IsUniqueViolation(raw.err) then EmailAlreadyExists else raw.err), s)
    else
      (Ok(()), raw.value)
  }

  /** FindByEmail: the stored user, unchanged; no matching row becomes
      UserNotFound, any other database error is returned unchanged. */
  function FindByEmail(s: Users, email: string, fault: Option<Error>): (r: Result<User>)
    ensures fault.None? ==> (r.Ok? <==> email in s.byEmail)
    ensures fault.None? && email in s.byEmail ==> r == Ok(s.byEmail[email])
    ensures fault.None? && email !in s.byEmail ==> r == Fail(UserNotFound)
    ensures fault.Some? ==> r == Fail(if Is(fault.value, NoRows) then UserNotFound else fault.value)
  {
    var raw := if fault.Some? then Fail(fault.value)
               else if email in s.byEmail then Ok(s.byEmail[email])
               else Fail(NoRows);
    if raw.Fail? then
      Fail(if Is(raw.err, NoRows) then UserNotFound else raw.err)
    else
      raw
  }

  /** What is created can be found again by its email, field for field. */
  lemma CreateThenFind(s: Users, u: User)
    requires u.email !in s.byEmail && !IdTaken(s, u.id)
    ensures var s' := Create(s, u, None).1;
            FindByEmail(s', u.email, None) == Ok(u)
  {
  }

  /** A second sign-up with the same email is refused, and the table still
      holds one user under that email: the first one. */
  lemma SecondCreateWithSameEmailFails(s: Users, u: User, v: User)
    requires u.email !in s.byEmail && !IdTaken(s, u.id)
    requires v.email == u.email
    ensures var s1 := Create(s, u, None).1;
            var (r2, s2) := Create(s1, v, None);
            && r2 == Fail(EmailAlreadyExists)
            && s2 == s1
            && FindByEmail(s2, u.email, None) == Ok(u)
  {
  }

  /** A driver error is a unique violation exactly when its code is 23505,
      and wrapping does not change the classification. */
  lemma UniqueViolationByCode(code: string, detail: string, text: string, e: Error)
    ensures IsUniqueViolation(Pq(code, detail)) <==> code == UniqueViolation
    ensures IsUniqueViolation(Wrapped(text, e)) == IsUniqueViolation(e)
    ensures !e.Pq? && !e.Wrapped? ==> !IsUniqueViolation(e)
  {
    assert UnwrapChain(Pq(code, detail)) == [Pq(code, detail)];
    assert NoPqBefore([Pq(code, detail)], 0);
    if !e.Pq? && !e.Wrapped? {
      assert UnwrapChain(e) == [e];
    }
  }
}

=== FILE: web.dfy ===
/** What a handler writes back: a status code and a body. JSON bodies are kept
    as records of their fields; `http.Error` bodies are plain text ending in a
    newline. */
module Web {
  import Calculator
  import HistoryStore

  const StatusOK: int := 200
  const StatusBadRequest: int := 400
  const StatusUnauthorized: int := 401
  const StatusMethodNotAllowed: int := 405
  const StatusInternalServerError: int := 500

  const MethodPost: string := "POST"

  datatype Body =
    // http.Error(w, text, code)
    | PlainText(text: string)
    // {"error": message}
    | ErrorObject(message: string)
    // the sign-up response; an empty field means the field is absent
    | SignUpReply(status: string, field: string, message: string)
    // the login response; an empty token means the token is absent
    | LoginReply(status: string, token: string)
    // a calculation result
    | CalcReply(result: Calculator.CalculationResult)
    // the history listing
    | HistoryReply(items: seq<HistoryStore.ResponseEntry>)

  datatype Response = Response(status: int, body: Body)

  /** http.Error: the text followed by a newline. */
  function HttpError(text: string, code: int): Response
  {
    Response(code, PlainText(text + "\n"))
  }
}
